=== FILE: README.md ===
# click-ads in Dafny

A model of the logic of click-ads, a Next.js site that gates two videos
behind affiliate links. On a phone a visitor must first open a TikTok link
and then a Shopee link before the videos unblur. On a desktop the TikTok
link alone is enough. The click count lives in the browser's
`localStorage` under the single key `videoClickCount`. Android in-app
browsers (Facebook, Instagram, Line, Zalo) are sent to Chrome through an
`intent://` URL. Two server hops, `/api/open` and `/api/go`, redirect the
visitor. Admin routes manage the content and the landing pages stored
through Prisma, and delete uploaded videos from Cloudinary.

Modules, one per source file or shared concern:

- `Wrappers`: `Option`.
- `Text`: `startsWith`, `endsWith`, `includes`, and the case-insensitive
  substring tests of the `/…/i` regular expressions.
- `Js`: JavaScript truthiness of request fields. The counter's numbers are
  an integer or `NaN`. Also `Number.prototype.toString` and the global
  `parseInt` with no radix (leading white space, sign, `0x` prefix, longest
  digit run), following ECMAScript.
- `ClickGate`: `lib/utils.ts`, the overlay, next-action and label
  decisions, and the click-count codec over a string store.
- `HomePage`: `app/page.tsx`.
  - user-agent detection, the intent URL and the mount effect;
  - the video-click handler, and visits made of many clicks while the
    device class may change;
  - screen selection and the escape button.
- `Db`, `MockData`: the `content` and `page` records, the Prisma
  stand-in, and the demo content of `lib/mockData.ts`.
- `OpenRoute`, `GoRoute`, `UploadDelete`, `PagesRoute`, `ContentRoute`:
  the API routes.

Conventions of the model:

- A table is the sequence of its rows in creation order. This makes the
  order of `findMany`/`findFirst` and ties between equal timestamps
  deterministic.
- The queries of one request are numbered from 0. A fault `Some(k)` makes
  query `k` throw.
- Prisma also throws for `null` in a non-nullable column, for an update or
  delete of a missing id, and for a duplicate id. Each of these becomes the
  handler's 500 response.
- Identifiers and timestamps that Prisma generates are parameters.
- `encodeURIComponent` and Cloudinary's `destroy` are function parameters
  with no interpretation.
- Side effects are returned as values: the URL navigated to, the tab
  opened, the string written to storage, and whether the database or
  Cloudinary was called.

Facts the proofs bring out:

- A negative stored count locks the gate for good: the overlay stays up
  and clicks do nothing.
- A stored count that does not parse (`NaN`) unlocks the videos at once.
- The escape screen's `/api/open` branch cannot be reached from the page
  while the user agent stays the same.
- The escape screen's Safari steps show only for a user agent that names
  both Android and an Apple device. A genuine iPhone in-app browser is
  never classed as in-app.
- Only the leading `/` of an `/api/open` target is checked, so a
  protocol-relative `//host` passes.
- The content `PUT` writes empty strings as given, while the pages `PUT`
  ignores falsy fields.
- The page's overlay button always reads "Click để xem video". The
  progress counter of `getButtonText` in `lib/utils.ts` never reaches it.
- An unversioned URL with two `/upload/` segments keeps the second one
  inside the public id, because the leftmost match wins.

## Model

| member | source | states |
|---|---|---|
| ClickGate.IsMobileDevice | lib/utils.ts:1-4 | mobile exactly when a window exists and is at most 768 pixels wide; never on the server |
| ClickGate.RequiredLinks | lib/utils.ts:22-39 | reference sequence of links to click through: it starts with TikTok and never contains play (mobile TikTok then Shopee, desktop TikTok only) |
| ClickGate.GetClickCount | lib/utils.ts:6-10 | the count is 0 without a window, without a stored value and for an empty stored string; otherwise it is `parseInt` of the stored text |
| ClickGate.SetClickCount | lib/utils.ts:12-15 | writes the counter key, keeps every other key and its value, keeps the viewport, and does nothing without a window |
| ClickGate.ResetClickCount | lib/utils.ts:17-20 | removes exactly the counter key; does nothing without a window |
| ClickGate.NextAction | lib/utils.ts:30-39 | Shopee is only ever next on mobile |
| ClickGate.ShouldShowOverlay | lib/utils.ts:22-28 | overlay shown iff the count is an integer below the length of the required-link list; `ClickGate.OverlayWhileLinksRemain` and `ClickGate.PlayIffNoOverlay` relate it to the next action |
| ClickGate.ButtonText | lib/utils.ts:41-50 | the label is the play label iff the next action is play; `ClickGate.ProgressLabel` gives the progress text while a link remains |
| ClickGate.OverlayWhileLinksRemain | lib/utils.ts:22-28 | overlay shown iff the count is an integer below the number of required links (2 on mobile, 1 on desktop) |
| ClickGate.NextActionFollowsRequiredLinks | lib/utils.ts:30-39 | the next action is the required link at position `count`, and play for any count outside the list, NaN included |
| ClickGate.PlayIffNoOverlay | lib/utils.ts:22-39 | "play is next iff no overlay" holds exactly for counts that are not negative |
| ClickGate.PlayLabelIffPlay | lib/utils.ts:30-50 | the label is "Xem video" iff the next action is play, for every count |
| ClickGate.ProgressLabel | lib/utils.ts:41-50 | while a link remains, the label is "Click để xem video (count+1/links+1)": (1/3), (2/3) on mobile and (1/2) on desktop |
| ClickGate.ClickCountRoundTrip | lib/utils.ts:6-15 | reading back a stored count yields that count, for every integer and NaN |
| ClickGate.ResetReadsZero | lib/utils.ts:6-20 | after a reset the count reads 0 |
| Js.ParseIntRoundTrip | lib/utils.ts:9-14 | `parseInt(x.toString())` is `x` for every integer and for NaN |
| Js.DecimalValue | lib/utils.ts:14 | the decimal numeral of n has value n |
| Text.ContainsIff | app/api/upload/delete/route.ts:47 | the `includes` scan succeeds iff the pattern occurs at some index |
| Text.ContainsIgnoreCaseWitness | app/page.tsx:38-39 | a token embedded anywhere in the user agent is found by the case-insensitive test |
| HomePage.IsInAppBrowser | app/page.tsx:38-39 | in-app iff the user agent names Android and one of the six app tokens (FBAN, FBAV, FB_IAB, Instagram, Line/, Zalo), up to ASCII case |
| HomePage.IntentUrl | app/page.tsx:47 | the intent URL starts with `intent://` and ends with the Chrome marker, the encoded current address as the fallback, and `;end`; its path is the address without a leading `https://` or `http://`, and the whole address when it has neither |
| HomePage.StripScheme | app/page.tsx:47 | removes one leading `https://` or `http://` (case-sensitive) and nothing else |
| HomePage.IntentReopensPage | app/page.tsx:46-48 | an https page and an http page at the same address give the same intent path, which Chrome opens under `scheme=https`: the http page comes back upgraded; only one scheme prefix is removed |
| HomePage.OnMount | app/page.tsx:26-55 | navigates away iff the browser is an Android in-app browser, and then to the intent URL of the current page; records the in-app and iOS classifications and the device class the page renders with |
| HomePage.MountAgreesWithUtilities | app/page.tsx:28-55 | the mount's device class and restored count equal `isMobileDevice` and `getClickCount` on the same window |
| HomePage.HandleVideoClick | app/page.tsx:83-105 | no content: nothing happens. A tab opens iff the count is written; the count rises by exactly one from a count that is not negative; the stored text is the new count's decimal; the tab is TikTok or Shopee at the content's address |
| HomePage.ClickFollowsEngine | app/page.tsx:83-113 | for counts that are not negative, a click opens a link iff the overlay is shown, and opens the engine's next action |
| HomePage.OddCountsAtTheGate | app/page.tsx:83-113 | a negative count keeps the overlay up and makes every click a no-op; NaN removes the overlay and makes play next |
| HomePage.ClickSurvivesReload | app/page.tsx:52-55 | the string a click stores restores, on reload, to the count it reached, through both the page and `getClickCount` |
| HomePage.ClicksMonotone | app/page.tsx:83-105 | under any sequence of device classes the count never decreases, rises by one per tab opened, and from ≤ 2 stays ≤ 2; NaN stays NaN |
| HomePage.ClicksOpenLinksInOrder | app/page.tsx:83-105 | a visit from count n opens exactly the links TikTok, Shopee from position n on, in order, none twice, each at the content's address |
| HomePage.ClickStep | app/page.tsx:86-104 | one click from a count within the gate either does nothing or opens the gate's link at that position and moves the count on by one |
| HomePage.ClicksOpenContentLinks | app/page.tsx:78-81 | every tab a visit opens is TikTok or Shopee, at the content's own link of that kind |
| HomePage.ClicksFollowGateOrder | app/page.tsx:83-105 | the kinds of the tabs opened from count n are TikTok, Shopee from position n on, and never take the count past 2 |
| HomePage.FreshMobileVisit | app/page.tsx:86-113 | fresh mobile visit: TikTok, then Shopee, then the overlay is gone and further clicks open nothing |
| HomePage.FreshDesktopVisit | app/page.tsx:97-113 | fresh desktop visit: one TikTok click removes the overlay; Shopee never opens |
| HomePage.Render | app/page.tsx:115-292 | loading shows the loading text; no content shows the notice; with content the escape screen shows iff the browser is in-app, with the Safari steps iff the user agent is iOS, and the gated videos otherwise; the overlay is up iff a link remains or the count is negative, and only then carries the fixed button label |
| HomePage.PageButtonOmitsProgress | app/page.tsx:115-117 | while a link remains the page's overlay button reads "Click để xem video", the label of `getButtonText` without its progress counter |
| HomePage.RestoreCount | app/page.tsx:52-55 | the mount restores 0 for a missing or empty saved value, and `parseInt` of a non-empty one |
| HomePage.OpenExternal | app/page.tsx:161-173 | the escape button opens the intent URL for any Android browser and, for any other, `/api/open?url=` followed by the encoded current address |
| HomePage.EscapeButtonRepeatsIntent | app/page.tsx:161-173 | whenever the escape screen shows, its button goes to the intent URL the mount already used |
| HomePage.AndroidInAppEscapes | app/page.tsx:37-49 | a user agent with "Android" followed by any app token is escaped through the intent URL |
| HomePage.NonAndroidNeverEscapes | app/page.tsx:38-44 | a user agent without "android" is never escaped and, rendered with the mount's classification, gets the gated videos |
| HomePage.SafariStepsNeedAndroid | app/page.tsx:37-43 | with the mount's classification, the escape screen shows the Safari steps iff the user agent names Android, an app token and an Apple device |
| OpenRoute.Target | app/api/open/route.ts:6 | the `url` parameter when non-empty, else the origin |
| OpenRoute.SafeUrl | app/api/open/route.ts:9-11 | the result is the target or the origin, and is allowed unless it is the origin |
| OpenRoute.HandleOpen | app/api/open/route.ts:48-64 | the anchor and the fallback use the same sanitised address; the auto-click comes before the fallback |
| OpenRoute.SafeUrlKeepsExactlyAllowed | app/api/open/route.ts:9-11 | a target is kept iff it starts with "https://" or "/" (or is the origin); otherwise the origin is used |
| OpenRoute.SafeUrlIdempotent | app/api/open/route.ts:9-11 | sanitising twice equals sanitising once |
| OpenRoute.MissingUrlGoesToOrigin | app/api/open/route.ts:6 | a missing or empty `url` leads to the origin |
| OpenRoute.OtherSchemesGoToOrigin | app/api/open/route.ts:9-11 | `http:`, `javascript:` and `data:` targets become the origin |
| OpenRoute.ProtocolRelativePasses | app/api/open/route.ts:9 | a protocol-relative `//host` target passes unchanged |
| GoRoute.ParseType | app/api/go/route.ts:8-10 | accepts exactly "tiktok" and "shopee" |
| GoRoute.HandleGo | app/api/go/route.ts:5-50 | 400 iff the type is invalid, and then no lookup; meta refresh, script and anchor share one url; a failed lookup is a redirect |
| GoRoute.GoSelectsLink | app/api/go/route.ts:13-48 | tiktok and shopee select the newest content's links, the demo links when nothing is stored, and a redirect to the demo link of the same type on a failure |
| GoRoute.GoRejectsOtherTypes | app/api/go/route.ts:8-10 | any other type, in any case, gets 400 "Invalid type" and no lookup |
| Db.Newest | app/api/content/route.ts:7-9 | none iff the table is empty; otherwise a stored row with the latest creation time |
| Db.IndexOfKey | app/api/pages/route.ts:123-125 | the first row whose key column holds the value, or none when no row does |
| UploadDelete.ExtensionSuffix | app/api/upload/delete/route.ts:17 | non-zero iff the URL ends in one of the five lower-case dotted extensions, and then it is that suffix's length |
| UploadDelete.GroupStart | app/api/upload/delete/route.ts:17-23 | unversioned: an attempt proceeds iff `/upload/` occurs there, and the group starts right after it; versioned: `/upload/v` occurs there, followed by at least one decimal digit and a `/` just before the group |
| UploadDelete.VersionedPrefixMatches | app/api/upload/delete/route.ts:17 | `/upload/v`, a run of digits and `/` always lets the versioned attempt proceed, with the group right after the slash |
| UploadDelete.Capture | app/api/upload/delete/route.ts:17-23 | a captured group is non-empty, has no line terminator, ends right before the extension and starts where the pattern's prefix ends (`GroupStart`) |
| UploadDelete.CaptureIsGroup | app/api/upload/delete/route.ts:17-23 | the captured group is exactly the text from the group start up to the extension |
| UploadDelete.ExtensionOfSuffix | app/api/upload/delete/route.ts:17 | a text ending in one of the five extensions has that extension's length as its suffix, whatever precedes it |
| UploadDelete.UnversionedCaptureRoundTrip | app/api/upload/delete/route.ts:22-23 | for `pre + "/upload/" + id + ext`, the unversioned pattern tried at the slash captures exactly `id` |
| UploadDelete.VersionedCaptureRoundTrip | app/api/upload/delete/route.ts:17-18 | for `pre + "/upload/v" + digits + "/" + id + ext`, the versioned pattern tried at the slash captures exactly `id` |
| UploadDelete.LeftmostMatch | app/api/upload/delete/route.ts:17-23 | the returned index matches and no earlier index does; none means no index matches |
| UploadDelete.ExtractPublicId | app/api/upload/delete/route.ts:14-33 | a found id is non-empty, has no line terminator, and is what precedes the URL's extension |
| UploadDelete.VersionedImpliesUnversioned | app/api/upload/delete/route.ts:17-26 | wherever the versioned pattern matches, the unversioned one matches too |
| UploadDelete.ExtractFailsIffNoUploadMatch | app/api/upload/delete/route.ts:14-29 | extraction fails iff the unversioned pattern matches nowhere |
| UploadDelete.VersionedTakesPrecedence | app/api/upload/delete/route.ts:17-20 | the leftmost versioned match decides the id |
| UploadDelete.UnversionedFallback | app/api/upload/delete/route.ts:22-26 | when the versioned pattern matches nowhere, the leftmost unversioned match decides the id |
| UploadDelete.UploadWithoutVersion | app/api/upload/delete/route.ts:17-26 | a URL `"/upload/" + id + ext` without any `v` yields exactly `id`, even when `id` holds another `/upload/` |
| UploadDelete.NestedUploadKeepsLeftmost | app/api/upload/delete/route.ts:22-26 | for `/upload/a/upload/b.mp4` the id is `a/upload/b`: the first `/upload/` wins |
| UploadDelete.NoExtensionNoId | app/api/upload/delete/route.ts:17-28 | a URL without one of the five lower-case extensions (".MP4" included) has no id |
| UploadDelete.DocCommentExample | app/api/upload/delete/route.ts:12-13 | the doc comment's URL yields "click-ads/video123" |
| UploadDelete.HandleDelete | app/api/upload/delete/route.ts:35-88 | a falsy URL gets 400; a non-Cloudinary URL is skipped and not destroyed; no id gets 400 and is not destroyed; otherwise the extracted id is destroyed, and success holds iff destroy answered "ok" or "not found"; a thrown destroy error or a body that is not JSON is a 500 with that message |
| UploadDelete.RejectedDestroyIsServerError | app/api/upload/delete/route.ts:70-86 | any other destroy result is a 500 naming that result |
| PagesRoute.FindBySlug | app/api/pages/route.ts:12-18 | a found page has that slug and is in the table; none means no page has it |
| PagesRoute.SortByCreation | app/api/pages/route.ts:25-27 | the listing is a permutation of the table, ordered by creation time |
| PagesRoute.HandleGet | app/api/pages/route.ts:6-46 | with a slug: the stored page with that slug when the query works and finds one, else the demo page with that slug or null; without one: the table sorted by creation when the query works and it is non-empty, else the demo pages |
| PagesRoute.GetServesStoredPage | app/api/pages/route.ts:10-22 | on a table with unique slugs, every stored page is served by its own slug |
| PagesRoute.GetListsStoredPages | app/api/pages/route.ts:24-34 | a reachable non-empty table is listed in full, oldest first, instead of the demo pages |
| PagesRoute.HandlePost | app/api/pages/route.ts:49-94 | a missing field is 400 "All fields are required"; a taken slug is 400 when the lookup works, and no other case is 400; every other failure is 500 "Failed to create page"; success iff all fields, a free slug, working queries, a non-null `isActive` and a fresh id; every failure leaves the table; success appends exactly the new page |
| PagesRoute.PostCreatesFromBody | app/api/pages/route.ts:62-84 | the new page carries all seven of the body's fields and the creation time, is active unless told otherwise, and has a slug and id no earlier page had |
| PagesRoute.PostKeepsTableValid | app/api/pages/route.ts:61-84 | `POST` keeps slugs and ids unique |
| PagesRoute.HandlePut | app/api/pages/route.ts:97-145 | 400 iff the id is missing or a truthy slug belongs to another page while the lookup works; every other failure is 500 "Failed to update page"; success iff an id, a slug that is free or the page's own, working queries, a non-null `isActive` and an existing page; every failure leaves the table; success replaces exactly the page with that id by the merge |
| PagesRoute.PutKeepsOwnSlug | app/api/pages/route.ts:110-137 | an update that repeats the page's own slug is saved |
| PagesRoute.PutRefusesForeignSlug | app/api/pages/route.ts:110-121 | a slug owned by another page is refused with 400, and the table is unchanged |
| PagesRoute.PutKeepsFalsyFields | app/api/pages/route.ts:123-134 | each of the seven string fields (title, slug, description, both video URLs, both links) keeps its stored value when the body gives a falsy one; `isActive` follows any defined value, so false can be set |
| PagesRoute.PutKeepsTableValid | app/api/pages/route.ts:109-135 | `PUT` keeps slugs and ids unique |
| PagesRoute.HandleDelete | app/api/pages/route.ts:148-171 | 400 iff the id is missing or empty; every other failure is 500 "Failed to delete page"; success iff a non-empty id, a working query and a page with that id; every failure leaves the table; success removes the row with that id |
| PagesRoute.DeleteRemovesOnlyThatPage | app/api/pages/route.ts:159-161 | a delete leaves no page with that id, keeps every other page, and keeps the table valid |
| ContentRoute.HandleGet | app/api/content/route.ts:5-22 | the demo content when the table is empty or the query fails; otherwise a stored row no older than any other |
| ContentRoute.GetServesStoredContent | app/api/content/route.ts:7-16 | a non-empty, reachable table is never answered with the demo content |
| ContentRoute.HandlePost | app/api/content/route.ts:24-58 | 400 iff a field is missing; every other failure is 500 "Failed to create content"; succeeds iff the fields are present and neither query fails; then the table is exactly the new row; a failed create leaves it empty |
| ContentRoute.PostThenGet | app/api/content/route.ts:5-58 | after a successful `POST`, `GET` serves exactly the posted fields |
| ContentRoute.HandlePut | app/api/content/route.ts:60-92 | 400 iff the id is missing; every other failure is 500 "Failed to update content"; succeeds iff an id, no null field, a working query and an existing row; then only that row is overwritten |
| ContentRoute.PutWritesGivenValues | app/api/content/route.ts:72-82 | each of the six fields (title, description, both video URLs, both links) is written as given, empty strings included, and keeps its stored value when omitted |

## Left out

- The admin page (`app/admin/page.tsx`) is not part of this model. It is React UI, upload plumbing with a floating-point progress figure, and a login flag.
- The signing route, the constant-400 upload route, the seed script and the layout are not part of this model. They are foreign cryptography, environment variables, clocks and static markup.
- JSX markup, the clipboard copy, the resize listener and the timers are left out. Only the delays' order is kept. Navigations and opened tabs are returned values.
- The HTML the routes build is reduced to the addresses it embeds. Nothing is claimed about escaping those addresses in HTML or script.
- Numbers are integers or `NaN`. Doubles, precision loss beyond 2^53, `Infinity` and the exponent form of `toString` are not modelled. `parseInt("-0")` reads as 0.
- Logging is left out. The routes' `console.error`, `console.warn` and `console.log` calls and the page's fetch-error log have no effect on any response.
- Strings are sequences of characters, not UTF-16 code units.
- The demo pages (`mockPages`) are a parameter. The file they are imported from does not define them in the version modelled.
- The demo content's timestamps are fixed at 0. `updatedAt` is not modelled.
- A `videoUrl` or page field that is JSON but not a string is not modelled.
- Concurrency is not modelled. That includes the check-then-create race on page slugs.
- Prisma is a sequence of rows, not a map from id to row. This keeps `findMany` ordering and ties deterministic. Uniqueness of ids and slugs is stated as `PagesRoute.ValidTable`.
- ClickGate.NextAction: its contract says only that Shopee is mobile-only. The full mapping is in `ClickGate.NextActionFollowsRequiredLinks`.
- ClickGate.RequiredLinks: its contract says only that TikTok comes first and play never appears. The exact lists are its definition.
- UploadDelete.ExtractPublicId: its contract bounds the result. Which match wins is in `UploadDelete.VersionedTakesPrecedence` and `UploadDelete.UnversionedFallback`; when there is none, in `UploadDelete.ExtractFailsIffNoUploadMatch`.

=== FILE: click_gate.dfy ===
/** The click-gate engine of `lib/utils.ts`: the pure decisions that map a
    click count and a device class to overlay visibility, the next external
    link and the button label, and the click-count codec over the browser's
    string key-value store. */
module ClickGate {
  import opened Wrappers
  import opened Js

  /** What a click on the gated video does next. */
  datatype Action = TikTok | Shopee | Play

  /** The browser's `localStorage`: string keys to string values. */
  type Store = map<string, string>

  /** The parts of `window` the utilities read. A missing window (`None`)
      stands for server-side rendering, where `typeof window` is
      `'undefined'`. */
  datatype Window = Window(innerWidth: int, storage: Store)

  /** The single, global storage key of the counter. */
  const ClickCountKey: string := "videoClickCount"

  /** Widest viewport, in CSS pixels, still classed as mobile. */
  const MobileMaxWidth: int := 768

  const PlayLabel: string := "Xem video"

  /** Reference definition of the gate: the external links a visitor must
      click through, in order, before the video plays. Mobile visitors open
      TikTok and then Shopee; desktop visitors open only TikTok. */
  function RequiredLinks(isMobile: bool): (links: seq<Action>)
    ensures |links| > 0 && links[0] == TikTok
    ensures Play !in links
  {
    if isMobile then [TikTok, Shopee] else [TikTok]
  }

  /** `isMobileDevice`: a viewport at most 768 pixels wide; never on the
      server. */
  function IsMobileDevice(window: Option<Window>): (mobile: bool)
    ensures mobile <==> window.Some? && window.value.innerWidth <= MobileMaxWidth
  {
    match window
    case None => false
    case Some(w) => w.innerWidth <= MobileMaxWidth
  }

  /** `getClickCount`: 0 without a window or without a stored value (an
      absent key or the empty string), else `parseInt` of the stored text. */
  function GetClickCount(window: Option<Window>): (count: Num)
    ensures window.None? ==> count == Int(0)
    ensures window.Some? && ClickCountKey !in window.value.storage ==> count == Int(0)
    ensures window.Some? && ClickCountKey in window.value.storage && window.value.storage[ClickCountKey] == ""
            ==> count == Int(0)
    ensures window.Some? && ClickCountKey in window.value.storage && window.value.storage[ClickCountKey] != ""
            ==> count == ParseInt(window.value.storage[ClickCountKey])
  {
    match window
    case None => Int(0)
    case Some(w) =>
      if ClickCountKey in w.storage && w.storage[ClickCountKey] != ""
      then ParseInt(w.storage[ClickCountKey])
      else Int(0)
  }

  /** `setClickCount`: stores the decimal text of `count` under the counter
      key and leaves every other key alone; a no-op without a window. */
  function SetClickCount(window: Option<Window>, count: Num): (w': Option<Window>)
    ensures window.None? ==> w' == None
    ensures window.Some? ==> w'.Some? && w'.value.innerWidth == window.value.innerWidth
    ensures window.Some? ==> ClickCountKey in w'.value.storage
    ensures window.Some? ==> forall k :: k != ClickCountKey ==>
      (k in w'.value.storage <==> k in window.value.storage)
      && (k in window.value.storage ==> w'.value.storage[k] == window.value.storage[k])
  {
    match window
    case None => None
    case Some(w) => Some(w.(storage := w.storage[ClickCountKey := NumberToString(count)]))
  }

  /** `resetClickCount`: removes the counter key; a no-op without a window. */
  function ResetClickCount(window: Option<Window>): (w': Option<Window>)
    ensures window.None? ==> w' == None
    ensures window.Some? ==> w'.Some? && ClickCountKey !in w'.value.storage
    ensures window.Some? ==> w'.value.storage == window.value.storage - {ClickCountKey}
  {
    match window
    case None => None
    case Some(w) => Some(w.(storage := w.storage - {ClickCountKey}))
  }

  /** `shouldShowOverlay`: the overlay covers the video while the count is
      below the number of links to click through (2 on mobile, 1 on
      desktop). */
  function ShouldShowOverlay(count: Num, isMobile: bool): (overlay: bool)
    ensures overlay <==> count.Int? && count.value < |RequiredLinks(isMobile)|
  {
    if isMobile then count.Below(2) else count.Below(1)
  }

  /** `getNextAction`: the link for the current count, then play. */
  function NextAction(count: Num, isMobile: bool): (a: Action)
    ensures a == Shopee ==> isMobile
  {
    if isMobile then
      if count.Is(0) then TikTok else if count.Is(1) then Shopee else Play
    else
      if count.Is(0) then TikTok else Play
  }

  /** `getButtonText`: the progress label "(clicks so far + 1 / links + 1)"
      while a link remains, then the plain play label. */
  function ButtonText(count: Num, isMobile: bool): (caption: string)
    ensures caption == PlayLabel <==> NextAction(count, isMobile) == Play
  {
    if isMobile then
      if count.Is(0) then "Click để xem video (1/3)"
      else if count.Is(1) then "Click để xem video (2/3)"
      else PlayLabel
    else
      if count.Is(0) then "Click để xem video (1/2)" else PlayLabel
  }

  // ---------------------------------------------------------------------
  // Properties of the engine

  /** The overlay is up exactly while fewer links than required have been
      opened (negative counts included, since `-1 < 2`). */
  lemma OverlayWhileLinksRemain(count: Num, isMobile: bool)
    ensures ShouldShowOverlay(count, isMobile)
        <==> count.Int? && count.value < |RequiredLinks(isMobile)|
  {
  }

  /** The next action is the required link at position `count`, and play
      for every count outside the list (negative, past the end, or NaN). */
  lemma NextActionFollowsRequiredLinks(count: Num, isMobile: bool)
    ensures count.Int? && 0 <= count.value < |RequiredLinks(isMobile)|
        ==> NextAction(count, isMobile) == RequiredLinks(isMobile)[count.value]
    ensures !(count.Int? && 0 <= count.value < |RequiredLinks(isMobile)|)
        ==> NextAction(count, isMobile) == Play
  {
  }

  /** Play is next exactly when the overlay is gone, for every count that is
      not negative; a negative count is the one case where they disagree
      (overlay shown, yet play is next). */
  lemma PlayIffNoOverlay(count: Num, isMobile: bool)
    ensures (NextAction(count, isMobile) == Play <==> !ShouldShowOverlay(count, isMobile))
        <==> !(count.Int? && count.value < 0)
  {
  }

  /** The button reads "Xem video" exactly when play is next, for every
      count. */
  lemma PlayLabelIffPlay(count: Num, isMobile: bool)
    ensures ButtonText(count, isMobile) == PlayLabel <==> NextAction(count, isMobile) == Play
  {
  }

  /** While a link remains, the label shows progress as
      "(count + 1 / number of links + 1)": the final click is the one that
      plays the video. */
  lemma ProgressLabel(n: nat, isMobile: bool)
    requires n < |RequiredLinks(isMobile)|
    ensures ButtonText(Int(n), isMobile)
        == "Click để xem video (" + NumberToString(Int(n + 1)) + "/"
           + NumberToString(Int(|RequiredLinks(isMobile)| + 1)) + ")"
  {
  }

  /** Storing a count and reading it back yields the same count, for every
      integer and for NaN. */
  lemma ClickCountRoundTrip(window: Window, count: Num)
    ensures GetClickCount(SetClickCount(Some(window), count)) == count
  {
    ParseIntRoundTrip(count);
  }

  /** After a reset the counter reads 0. */
  lemma ResetReadsZero(window: Option<Window>)
    ensures GetClickCount(ResetClickCount(window)) == Int(0)
  {
  }
}

=== FILE: content_route.dfy ===
/** `/api/content` of `app/api/content/route.ts`: the single-content
    version of the site. `GET` serves the newest content (the demo content
    when there is none or the database fails), `POST` replaces the whole
    table with one new row, `PUT` overwrites the fields of one row.

    The table and faults are as in `Db`; the id and timestamp Prisma
    generates for a new row are parameters. */
module ContentRoute {
  import opened Wrappers
  import opened Js
  import opened Db
  import opened MockData

  datatype ContentBody = ContentBody(
    id: JsValue<string>,
    title: JsValue<string>,
    description: JsValue<string>,
    video1Url: JsValue<string>,
    video2Url: JsValue<string>,
    tiktokLink: JsValue<string>,
    shopeeLink: JsValue<string>)

  datatype ContentResponse =
    | Saved(content: Content)         // 200 { success, content }
    | BadRequest(error: string)       // 400
    | ServerError(error: string)      // 500

  /** A handler's response and the table it leaves behind. */
  datatype Outcome = Outcome(response: ContentResponse, rows: seq<Content>)

  /** `GET`: the newest row, or the demo content when the table is empty or
      the query throws. */
  function HandleGet(rows: seq<Content>, fault: Fault): (c: Content)
    ensures rows == [] || Throws(fault, 0) ==> c == MockContent
    ensures rows != [] && !Throws(fault, 0) ==>
              c in rows && forall d :: d in rows ==> d.createdAt <= c.createdAt
  {
    if Throws(fault, 0) then MockContent else Newest(rows).GetOr(MockContent)
  }

  /** Once content has been saved and the database answers, `GET` serves
      that content rather than the demo. */
  lemma GetServesStoredContent(rows: seq<Content>)
    requires rows != []
    ensures HandleGet(rows, None) in rows
  {
  }

  /** The six fields `POST` demands, all truthy. */
  predicate HasRequiredFields(b: ContentBody) {
    && Truthy(b.title) && Truthy(b.description)
    && Truthy(b.video1Url) && Truthy(b.video2Url)
    && Truthy(b.tiktokLink) && Truthy(b.shopeeLink)
  }

  /** `POST`: validate, delete every row (query 0), create the new one
      (query 1). The two queries are not a transaction: when the create
      throws, the table stays empty. `body` is `None` when the request is
      not JSON. */
  function HandlePost(body: Option<ContentBody>, rows: seq<Content>, fault: Fault, freshId: string, now: int): (o: Outcome)
    ensures o.response.Saved? <==> body.Some? && HasRequiredFields(body.value) && fault != Some(0) && fault != Some(1)
    ensures o.response.Saved? ==> o.rows == [o.response.content]
    ensures body.Some? && !HasRequiredFields(body.value) ==> o == Outcome(BadRequest("All fields are required"), rows)
    ensures o.response.BadRequest? <==> body.Some? && !HasRequiredFields(body.value)
    ensures !o.response.Saved? && !o.response.BadRequest? ==> o.response == ServerError("Failed to create content")
    ensures o.response.ServerError? ==> o.rows == (if body.Some? && Throws(fault, 1) then [] else rows)
  {
    match body
    case None => Outcome(ServerError("Failed to create content"), rows)
    case Some(b) =>
      if !HasRequiredFields(b) then Outcome(BadRequest("All fields are required"), rows)
      else if Throws(fault, 0) then Outcome(ServerError("Failed to create content"), rows)
      else if Throws(fault, 1) then Outcome(ServerError("Failed to create content"), [])
      else
        var c := Content(freshId, b.title.v, b.description.v, b.video1Url.v, b.video2Url.v,
                         b.tiktokLink.v, b.shopeeLink.v, now);
        Outcome(Saved(c), [c])
  }

  /** A successful `POST` followed by `GET` serves exactly the posted
      fields, whatever the table held before. */
  lemma PostThenGet(b: ContentBody, rows: seq<Content>, freshId: string, now: int)
    requires HasRequiredFields(b)
    ensures var o := HandlePost(Some(b), rows, None, freshId, now);
            var c := HandleGet(o.rows, None);
            && c.title == b.title.v && c.description == b.description.v
            && c.video1Url == b.video1Url.v && c.video2Url == b.video2Url.v
            && c.tiktokLink == b.tiktokLink.v && c.shopeeLink == b.shopeeLink.v
  {
  }

  /** Prisma's treatment of one field of `update`'s `data`: `undefined`
      leaves the column alone, any string (the empty one included) is
      written; `null` is refused before (see `HandlePut`). */
  function Overwrite(stored: string, field: JsValue<string>): string {
    if field.Val? then field.v else stored
  }

  /** A body field Prisma would refuse: the columns are non-nullable. */
  predicate HasNullField(b: ContentBody) {
    || b.title.Null? || b.description.Null? || b.video1Url.Null? || b.video2Url.Null?
    || b.tiktokLink.Null? || b.shopeeLink.Null?
  }

  function Apply(c: Content, b: ContentBody): Content {
    Content(c.id, Overwrite(c.title, b.title), Overwrite(c.description, b.description),
            Overwrite(c.video1Url, b.video1Url), Overwrite(c.video2Url, b.video2Url),
            Overwrite(c.tiktokLink, b.tiktokLink), Overwrite(c.shopeeLink, b.shopeeLink), c.createdAt)
  }

  /** `PUT`: demand an id, then update that row with the body's fields as
      given. Unlike the pages route there is no truthiness filter, so an
      empty string blanks the column. */
  function HandlePut(body: Option<ContentBody>, rows: seq<Content>, fault: Fault): (o: Outcome)
    ensures !o.response.Saved? ==> o.rows == rows
    ensures body.Some? && !Truthy(body.value.id) ==> o.response == BadRequest("Content ID is required")
    ensures o.response.Saved? <==>
              && body.Some? && Truthy(body.value.id) && !HasNullField(body.value) && fault != Some(0)
              && (exists i :: 0 <= i < |rows| && rows[i].id == body.value.id.v)
    ensures o.response.Saved? ==>
              exists i :: 0 <= i < |rows| && rows[i].id == body.value.id.v
                && o.response.content == Apply(rows[i], body.value) && o.rows == rows[i := o.response.content]
    ensures o.response.BadRequest? <==> body.Some? && !Truthy(body.value.id)
    ensures !o.response.Saved? && !o.response.BadRequest? ==> o.response == ServerError("Failed to update content")
  {
    match body
    case None => Outcome(ServerError("Failed to update content"), rows)
    case Some(b) =>
      if !Truthy(b.id) then Outcome(BadRequest("Content ID is required"), rows)
      else if Throws(fault, 0) || HasNullField(b) then Outcome(ServerError("Failed to update content"), rows)
      else
        match IndexOfKey(rows, ContentId, b.id.v)
        case None => Outcome(ServerError("Failed to update content"), rows)
        case Some(i) =>
          var c := Apply(rows[i], b);
          Outcome(Saved(c), rows[i := c])
  }

  /** Every field the body gives is written as given (so `""` blanks a
      column), and every field it omits keeps its stored value. */
  lemma PutWritesGivenValues(b: ContentBody, rows: seq<Content>, i: nat)
    requires i < |rows| && Truthy(b.id) && rows[i].id == b.id.v && !HasNullField(b)
    requires forall k :: 0 <= k < |rows| && rows[k].id == b.id.v ==> k == i
    ensures var o := HandlePut(Some(b), rows, None);
            && o.response.Saved?
            && o.rows == rows[i := o.response.content]
            && o.response.content.id == rows[i].id
            && (b.title.Val? ==> o.response.content.title == b.title.v)
            && (b.title.Undefined? ==> o.response.content.title == rows[i].title)
            && (b.description.Val? ==> o.response.content.description == b.description.v)
            && (b.description.Undefined? ==> o.response.content.description == rows[i].description)
            && (b.video1Url.Val? ==> o.response.content.video1Url == b.video1Url.v)
            && (b.video1Url.Undefined? ==> o.response.content.video1Url == rows[i].video1Url)
            && (b.video2Url.Val? ==> o.response.content.video2Url == b.video2Url.v)
            && (b.video2Url.Undefined? ==> o.response.content.video2Url == rows[i].video2Url)
            && (b.tiktokLink.Val? ==> o.response.content.tiktokLink == b.tiktokLink.v)
            && (b.tiktokLink.Undefined? ==> o.response.content.tiktokLink == rows[i].tiktokLink)
            && (b.shopeeLink.Val? ==> o.response.content.shopeeLink == b.shopeeLink.v)
            && (b.shopeeLink.Undefined? ==> o.response.content.shopeeLink == rows[i].shopeeLink)
  {
  }
}

=== FILE: db.dfy ===
/** The database records behind the routes, and the stand-in for Prisma.

    A table is the sequence of its rows in creation order. A request's
    queries are numbered from 0 in the order the handler issues them, and a
    fault `Some(k)` makes query `k` throw (connection lost, constraint
    violated at the server, ...); `None` means every query succeeds. */
module Db {
  import opened Wrappers

  /** A row of the `content` table (the single-content version of the site). */
  datatype Content = Content(
    id: string,
    title: string,
    description: string,
    video1Url: string,
    video2Url: string,
    tiktokLink: string,
    shopeeLink: string,
    createdAt: int)

  /** A row of the `page` table (one landing page per slug). */
  datatype Page = Page(
    id: string,
    slug: string,
    title: string,
    description: string,
    video1Url: string,
    video2Url: string,
    tiktokLink: string,
    shopeeLink: string,
    isActive: bool,
    createdAt: int)

  type Fault = Option<nat>

  /** Query number `k` of the request throws. */
  predicate Throws(fault: Fault, k: nat) {
    fault == Some(k)
  }

  function ContentId(c: Content): string { c.id }
  function PageId(p: Page): string { p.id }

  /** The position of the first row whose `key` column holds `k`: the row
      `update` and `delete` address through a unique column. */
  function IndexOfKey<R>(rows: seq<R>, key: R -> string, k: string): (r: Option<nat>)
    ensures r.Some? ==> r.value < |rows| && key(rows[r.value]) == k
    ensures r.Some? ==> forall i :: 0 <= i < r.value ==> key(rows[i]) != k
    ensures r.None? ==> forall i :: 0 <= i < |rows| ==> key(rows[i]) != k
  {
    if rows == [] then None
    else if key(rows[0]) == k then Some(0)
    else match IndexOfKey(rows[1..], key, k)
      case None => None
      case Some(i) => Some(i + 1)
  }

  /** `findFirst({ orderBy: { createdAt: 'desc' } })`: a row with the latest
      creation time (the earliest such row on a tie), or nothing for an empty
      table. */
  function Newest(rows: seq<Content>): (r: Option<Content>)
    ensures r.None? <==> rows == []
    ensures r.Some? ==> r.value in rows
    ensures r.Some? ==> forall c :: c in rows ==> c.createdAt <= r.value.createdAt
  {
    if rows == [] then None
    else
      match Newest(rows[1..])
      case None => Some(rows[0])
      case Some(c) => if rows[0].createdAt >= c.createdAt then Some(rows[0]) else Some(c)
  }
}

/** The constant demo content of `lib/mockData.ts`, served when the database
    is empty or unreachable. Its timestamps, taken from the clock when the
    module loads, are fixed at 0 here. */
module MockData {
  import opened Db

  const MockTiktokLink: string := "https://www.tiktok.com/@tiktok"
  const MockShopeeLink: string := "https://shopee.vn"

  const MockContent: Content := Content(
    "mock-1",
    "Video Demo - Testing Affiliate System",
    "Đây là nội dung demo để test hệ thống affiliate.\n\nHướng dẫn test:\n1. Mở trang này trên điện thoại (hoặc resize browser < 768px)\n2. Click vào video - sẽ redirect đến TikTok\n3. Click lần 2 - sẽ redirect đến Shopee  \n4. Click lần 3 - được xem video\n\nTrên PC (> 768px):\n1. Click lần 1 - redirect TikTok\n2. Click lần 2 - được xem video (không có Shopee)",
    "https://commondatastorage.googleapis.com/gtv-videos-bucket/sample/BigBuckBunny.mp4",
    "https://commondatastorage.googleapis.com/gtv-videos-bucket/sample/ElephantsDream.mp4",
    MockTiktokLink,
    MockShopeeLink,
    0)
}

=== FILE: go_route.dfy ===
/** `GET /api/go?type=…` of `app/api/go/route.ts`: validates the link type,
    looks up the newest content (falling back to the demo content) and
    returns a page that redirects to its TikTok or Shopee link. */
module GoRoute {
  import opened Wrappers
  import opened Db
  import MockData

  /** The two link types the route accepts. */
  datatype LinkType = TikTokLink | ShopeeLink

  /** The `type` parameter, when it is exactly "tiktok" or "shopee". */
  function ParseType(typeParam: Option<string>): (t: Option<LinkType>)
    ensures t == Some(TikTokLink) <==> typeParam == Some("tiktok")
    ensures t == Some(ShopeeLink) <==> typeParam == Some("shopee")
  {
    if typeParam == Some("tiktok") then Some(TikTokLink)
    else if typeParam == Some("shopee") then Some(ShopeeLink)
    else None
  }

  function Pick(content: Content, t: LinkType): string {
    match t
    case TikTokLink => content.tiktokLink
    case ShopeeLink => content.shopeeLink
  }

  /** The redirect document: a meta refresh, a script `location.replace`
      and a fallback anchor. */
  datatype RedirectDoc = RedirectDoc(metaRefreshUrl: string, scriptReplaceUrl: string, anchorHref: string)

  datatype GoResponse =
    | BadRequest(error: string)       // 400
    | Document(doc: RedirectDoc)      // 200, text/html
    | Redirect(location: string)      // 307 redirect

  /** The response, and whether the content table was queried. */
  datatype GoResult = GoResult(response: GoResponse, queried: bool)

  function HandleGo(typeParam: Option<string>, rows: seq<Content>, fault: Fault): (r: GoResult)
    ensures ParseType(typeParam).None? <==> r.response.BadRequest?
    ensures ParseType(typeParam).None? ==> !r.queried
    ensures r.response.Document? ==> var d := r.response.doc;
              d.metaRefreshUrl == d.scriptReplaceUrl == d.anchorHref
    ensures r.response.Document? ==> !Throws(fault, 0)
    ensures r.response.Redirect? <==> ParseType(typeParam).Some? && Throws(fault, 0)
  {
    match ParseType(typeParam)
    case None => GoResult(BadRequest("Invalid type"), false)
    case Some(t) =>
      if Throws(fault, 0) then GoResult(Redirect(Pick(MockData.MockContent, t)), true)
      else
        var content := Newest(rows).GetOr(MockData.MockContent);
        var url := Pick(content, t);
        GoResult(Document(RedirectDoc(url, url, url)), true)
  }

  /** The page sends "tiktok" to the newest content's TikTok link and
      "shopee" to its Shopee link; with no content stored it uses the demo
      content's links, and when the lookup fails it redirects to the demo
      link of the same type. */
  lemma GoSelectsLink(rows: seq<Content>, fault: Fault)
    ensures !Throws(fault, 0) && rows != [] ==>
      && HandleGo(Some("tiktok"), rows, fault).response.doc.anchorHref == Newest(rows).value.tiktokLink
      && HandleGo(Some("shopee"), rows, fault).response.doc.anchorHref == Newest(rows).value.shopeeLink
    ensures !Throws(fault, 0) && rows == [] ==>
      && HandleGo(Some("tiktok"), rows, fault).response.doc.anchorHref == MockData.MockTiktokLink
      && HandleGo(Some("shopee"), rows, fault).response.doc.anchorHref == MockData.MockShopeeLink
    ensures Throws(fault, 0) ==>
      && HandleGo(Some("tiktok"), rows, fault).response == Redirect(MockData.MockTiktokLink)
      && HandleGo(Some("shopee"), rows, fault).response == Redirect(MockData.MockShopeeLink)
  {
  }

  /** Any other type, in any letter case, is refused without a lookup. */
  lemma GoRejectsOtherTypes(typeParam: Option<string>, rows: seq<Content>, fault: Fault)
    requires typeParam != Some("tiktok") && typeParam != Some("shopee")
    ensures HandleGo(typeParam, rows, fault) == GoResult(BadRequest("Invalid type"), false)
  {
  }
}

=== FILE: home_page.dfy ===
/** The visitor-facing page of `app/page.tsx`: in-app-browser detection and
    the Android intent escape on mount, the restore of the persisted click
    count, the video-click handler that walks the visitor through the
    external links, and the choice of screen to render.

    Side effects become values: a navigation is a returned URL, an opened
    tab is a returned `Link`, a `localStorage` write is the returned string. */
module HomePage {
  import opened Wrappers
  import opened Text
  import opened Js
  import opened ClickGate
  import Db

  // ---------------------------------------------------------------------
  // Browser detection

  /** `/Android/i.test(ua)`. */
  predicate IsAndroid(ua: string) {
    ContainsIgnoreCase(ua, "Android")
  }

  /** `/FBAN|FBAV|FB_IAB|Instagram|Line\/|Zalo/i.test(ua)`: the user agent
      names one of the apps whose embedded browser the page escapes from. */
  predicate NamesInAppToken(ua: string) {
    || ContainsIgnoreCase(ua, "FBAN")
    || ContainsIgnoreCase(ua, "FBAV")
    || ContainsIgnoreCase(ua, "FB_IAB")
    || ContainsIgnoreCase(ua, "Instagram")
    || ContainsIgnoreCase(ua, "Line/")
    || ContainsIgnoreCase(ua, "Zalo")
  }

  /** Only Android user agents are classed as in-app browsers. */
  function IsInAppBrowser(ua: string): (inApp: bool)
    ensures inApp <==> IsAndroid(ua) && exists t :: t in InAppTokens && ContainsIgnoreCase(ua, t)
  {
    IsAndroid(ua) && NamesInAppToken(ua)
  }

  /** The app tokens the in-app test looks for, as a list. */
  const InAppTokens: seq<string> := ["FBAN", "FBAV", "FB_IAB", "Instagram", "Line/", "Zalo"]

  /** `/iPhone|iPad|iPod/i.test(ua)`. */
  predicate IsIOS(ua: string) {
    ContainsIgnoreCase(ua, "iPhone") || ContainsIgnoreCase(ua, "iPad") || ContainsIgnoreCase(ua, "iPod")
  }

  // ---------------------------------------------------------------------
  // The Android intent URL

  /** `url.replace(/^https?:\/\//, '')`: drops one leading `https://` or
      `http://` (case-sensitive), and nothing else. */
  function StripScheme(url: string): (path: string)
    ensures path == url || (StartsWith(url, "https://") && url == "https://" + path)
                        || (StartsWith(url, "http://") && url == "http://" + path)
  {
    if StartsWith(url, "https://") then url[8..]
    else if StartsWith(url, "http://") then url[7..]
    else url
  }

  const IntentMarker: string := "#Intent;scheme=https;package=com.android.chrome;S.browser_fallback_url="

  /** The intent URL that asks Android to open `href` in Chrome, falling back
      to `href` itself (`enc` is `encodeURIComponent`, left uninterpreted). */
  function IntentUrl(href: string, enc: string -> string): (u: string)
    ensures StartsWith(u, "intent://") && EndsWith(u, IntentMarker + enc(href) + ";end")
    ensures StartsWith(href, "https://") ==> u == "intent://" + href[8..] + (IntentMarker + enc(href) + ";end")
    ensures StartsWith(href, "http://") ==> u == "intent://" + href[7..] + (IntentMarker + enc(href) + ";end")
    ensures !StartsWith(href, "https://") && !StartsWith(href, "http://")
            ==> u == "intent://" + href + (IntentMarker + enc(href) + ";end")
  {
    HttpIsNotHttps(href);
    var fallback := IntentMarker + enc(href) + ";end";
    var u := "intent://" + StripScheme(href) + fallback;
    assert u[|u| - |fallback|..] == fallback;
    assert u[..9] == "intent://";
    u
  }

  /** The two scheme prefixes exclude each other (they differ at index 4). */
  lemma HttpIsNotHttps(url: string)
    ensures StartsWith(url, "http://") ==> !StartsWith(url, "https://")
  {
    if StartsWith(url, "http://") {
      assert url[..7][4] == url[4];
      if 8 <= |url| {
        assert url[..8][4] == url[4];
      }
    }
  }

  /** An `http` page and an `https` page at the same address give the same
      intent path, which Chrome opens under `scheme=https`: the `http` page
      comes back upgraded. Only one scheme prefix is ever removed. */
  lemma IntentReopensPage(rest: string, enc: string -> string)
    ensures IntentUrl("https://" + rest, enc) == "intent://" + rest + (IntentMarker + enc("https://" + rest) + ";end")
    ensures IntentUrl("http://" + rest, enc) == "intent://" + rest + (IntentMarker + enc("http://" + rest) + ";end")
  {
    assert StartsWith("https://" + rest, "https://") && ("https://" + rest)[8..] == rest;
    assert StartsWith("http://" + rest, "http://") && ("http://" + rest)[7..] == rest;
  }

  // ---------------------------------------------------------------------
  // Mount

  /** What the mount effect decides once: the device class, the user-agent
      classification, the escape navigation (if any) and the restored click
      count. */
  datatype Mount = Mount(isMobile: bool, inApp: bool, isIOS: bool, navigateTo: Option<string>, count: Num)

  /** The count restored on mount: 0 unless a non-empty value was saved,
      then `parseInt` of it. */
  function RestoreCount(saved: Option<string>): (count: Num)
    ensures saved.None? || saved == Some("") ==> count == Int(0)
    ensures saved.Some? && saved.value != "" ==> count == ParseInt(saved.value)
  {
    if saved.Some? && saved.value != "" then ParseInt(saved.value) else Int(0)
  }

  /** The mount effect: classify the device by viewport width, escape an
      Android in-app browser through the intent URL, restore the count. */
  function OnMount(innerWidth: int, ua: string, href: string, saved: Option<string>,
                   enc: string -> string): (m: Mount)
    ensures m.navigateTo.Some? <==> IsInAppBrowser(ua)
    ensures m.navigateTo.Some? ==> m.navigateTo.value == IntentUrl(href, enc)
    ensures m.inApp == IsInAppBrowser(ua) && m.isIOS == IsIOS(ua)
    ensures m.isMobile <==> innerWidth <= MobileMaxWidth
  {
    var inApp := IsInAppBrowser(ua);
    Mount(
      innerWidth <= MobileMaxWidth,
      inApp,
      IsIOS(ua),
      if inApp then Some(IntentUrl(href, enc)) else None,
      RestoreCount(saved))
  }

  /** The page's own device check agrees with `isMobileDevice`, and its
      count restore agrees with `getClickCount`, for the same window. */
  lemma MountAgreesWithUtilities(window: Window, ua: string, href: string, enc: string -> string)
    ensures var saved := if ClickCountKey in window.storage then Some(window.storage[ClickCountKey]) else None;
            var m := OnMount(window.innerWidth, ua, href, saved, enc);
            m.isMobile == IsMobileDevice(Some(window)) && m.count == GetClickCount(Some(window))
  {
  }

  // ---------------------------------------------------------------------
  // The video click

  /** A tab opened by the handler: which link, and its address. */
  datatype Link = Link(kind: Action, url: string)

  /** The outcome of one click: the new count, the tab opened (if any), and
      the text written to the counter key (if any). */
  datatype Click = Click(count: Num, tabs: Option<Link>, stored: Option<string>)

  /** `openLink`: the content's TikTok or Shopee address. */
  function LinkUrl(content: Db.Content, kind: Action): string
    requires kind != Play
  {
    if kind == TikTok then content.tiktokLink else content.shopeeLink
  }

  /** `handleVideoClick`: without content nothing happens; otherwise, on
      mobile, count 0 opens TikTok and count 1 opens Shopee, and on desktop
      count 0 opens TikTok; each opening bumps the count and stores it. */
  function HandleVideoClick(content: Option<Db.Content>, isMobile: bool, count: Num): (c: Click)
    ensures content.None? ==> c == Click(count, None, None)
    ensures c.tabs.Some? <==> c.stored.Some?
    ensures c.tabs.None? ==> c.count == count
    ensures c.tabs.Some? ==> count.Int? && 0 <= count.value && c.count == Int(count.value + 1)
    ensures c.stored.Some? ==> c.stored.value == NumberToString(c.count)
    ensures c.tabs.Some? ==> content.Some? && c.tabs.value.kind != Play
                             && c.tabs.value.url == LinkUrl(content.value, c.tabs.value.kind)
  {
    match content
    case None => Click(count, None, None)
    case Some(ct) =>
      if isMobile then
        if count.Is(0) then Click(Int(1), Some(Link(TikTok, ct.tiktokLink)), Some("1"))
        else if count.Is(1) then Click(Int(2), Some(Link(Shopee, ct.shopeeLink)), Some("2"))
        else Click(count, None, None)
      else
        if count.Is(0) then Click(Int(1), Some(Link(TikTok, ct.tiktokLink)), Some("1"))
        else Click(count, None, None)
  }

  /** The page's handler follows the engine of `lib/utils.ts`: for every
      count that is not negative, a click opens a link exactly while the
      overlay is shown, and the link it opens is the engine's next action. */
  lemma ClickFollowsEngine(content: Db.Content, isMobile: bool, count: Num)
    requires !(count.Int? && count.value < 0)
    ensures var c := HandleVideoClick(Some(content), isMobile, count);
            && (c.tabs.Some? <==> ShouldShowOverlay(count, isMobile))
            && (c.tabs.Some? ==> c.tabs.value.kind == NextAction(count, isMobile))
  {
  }

  /** A negative stored count locks the gate: the overlay stays up and no
      click ever opens a link or changes the count. A count that does not
      parse (NaN) unlocks the video at once. */
  lemma OddCountsAtTheGate(content: Db.Content, isMobile: bool, n: int)
    requires n < 0
    ensures ShouldShowOverlay(Int(n), isMobile)
    ensures HandleVideoClick(Some(content), isMobile, Int(n)) == Click(Int(n), None, None)
    ensures !ShouldShowOverlay(NaN, isMobile) && NextAction(NaN, isMobile) == Play
  {
  }

  /** The count is written before the tab matters: reloading right after a
      click restores the count the click reached, through the page's restore
      and through `getClickCount` alike. */
  lemma ClickSurvivesReload(content: Option<Db.Content>, isMobile: bool, count: Num, window: Window)
    ensures var c := HandleVideoClick(content, isMobile, count);
            c.stored.Some? ==>
              && RestoreCount(c.stored) == c.count
              && GetClickCount(Some(window.(storage := window.storage[ClickCountKey := c.stored.value]))) == c.count
  {
    var c := HandleVideoClick(content, isMobile, count);
    if c.stored.Some? {
      ParseIntRoundTrip(c.count);
    }
  }

  // ---------------------------------------------------------------------
  // A visit: a sequence of clicks

  /** The state after a series of clicks, `isMobiles[i]` being the device
      class at the `i`-th click (the viewport may be resized in between),
      and the tabs opened, in order. */
  datatype Visit = Visit(count: Num, tabs: seq<Link>)

  function Clicks(content: Option<Db.Content>, isMobiles: seq<bool>, count: Num): Visit
    decreases |isMobiles|
  {
    if isMobiles == [] then Visit(count, [])
    else
      var c := HandleVideoClick(content, isMobiles[0], count);
      var rest := Clicks(content, isMobiles[1..], c.count);
      Visit(rest.count, (if c.tabs.Some? then [c.tabs.value] else []) + rest.tabs)
  }

  function Kinds(links: seq<Link>): (r: seq<Action>)
    ensures |r| == |links|
    ensures forall i :: 0 <= i < |links| ==> r[i] == links[i].kind
  {
    seq(|links|, i requires 0 <= i < |links| => links[i].kind)
  }

  /** Whatever the device classes along the way, the count never decreases,
      rises by exactly one per tab opened, and from a start within the gate
      never passes 2. NaN stays NaN and opens nothing. */
  lemma {:induction false} ClicksMonotone(content: Option<Db.Content>, isMobiles: seq<bool>, count: Num)
    ensures var v := Clicks(content, isMobiles, count);
            && (count.NaN? ==> v.count.NaN? && v.tabs == [])
            && (count.Int? ==> v.count.Int? && v.count.value == count.value + |v.tabs|)
            && (count.Int? && count.value <= 2 ==> v.count.value <= 2)
    decreases |isMobiles|
  {
    if isMobiles != [] {
      var c := HandleVideoClick(content, isMobiles[0], count);
      ClicksMonotone(content, isMobiles[1..], c.count);
    }
  }

  /** One click from a count within the gate: either nothing happens, or
      the gate's link at that position opens, at the content's address, and
      the count moves one on. */
  lemma ClickStep(content: Option<Db.Content>, isMobile: bool, n: nat)
    requires n <= 2
    ensures var c := HandleVideoClick(content, isMobile, Int(n));
            || (c.tabs.None? && c.count == Int(n))
            || (&& c.tabs.Some? && n < 2 && c.count == Int(n + 1)
                && c.tabs.value.kind == [TikTok, Shopee][n])
  {
  }

  /** A tab showing the content's own link of its kind. */
  predicate IsContentLink(content: Option<Db.Content>, link: Link) {
    content.Some? && link.kind != Play && link.url == LinkUrl(content.value, link.kind)
  }

  /** Every tab a visit opens shows the content's own link of its kind. */
  lemma {:induction false} ClicksOpenContentLinks(content: Option<Db.Content>, isMobiles: seq<bool>, count: Num)
    ensures forall l :: l in Clicks(content, isMobiles, count).tabs ==> IsContentLink(content, l)
    decreases |isMobiles|
  {
    if isMobiles != [] {
      var c := HandleVideoClick(content, isMobiles[0], count);
      ClicksOpenContentLinks(content, isMobiles[1..], c.count);
      var rest := Clicks(content, isMobiles[1..], c.count).tabs;
      var head: seq<Link> := if c.tabs.Some? then [c.tabs.value] else [];
      assert forall l :: l in head ==> IsContentLink(content, l);
      assert Clicks(content, isMobiles, count).tabs == head + rest;
    }
  }

  /** The kinds of the tabs a visit opens from count `n` are the gate's
      links from position `n` on. */
  lemma {:induction false} ClicksFollowGateOrder(content: Option<Db.Content>, isMobiles: seq<bool>, n: nat)
    requires n <= 2
    ensures var v := Clicks(content, isMobiles, Int(n));
            n + |v.tabs| <= 2 && Kinds(v.tabs) == [TikTok, Shopee][n..n + |v.tabs|]
    decreases |isMobiles|
  {
    if isMobiles != [] {
      var c := HandleVideoClick(content, isMobiles[0], Int(n));
      ClickStep(content, isMobiles[0], n);
      var v := Clicks(content, isMobiles, Int(n));
      if c.tabs.Some? {
        ClicksFollowGateOrder(content, isMobiles[1..], n + 1);
        var rest := Clicks(content, isMobiles[1..], Int(n + 1));
        assert v.tabs == [c.tabs.value] + rest.tabs;
        assert Kinds(v.tabs) == [c.tabs.value.kind] + Kinds(rest.tabs);
      } else {
        ClicksFollowGateOrder(content, isMobiles[1..], n);
      }
    }
  }

  /** The tabs a visit opens from count `n` are the gate's links from
      position `n` on, in order: TikTok before Shopee, neither twice, each
      at the content's address. */
  lemma ClicksOpenLinksInOrder(content: Option<Db.Content>, isMobiles: seq<bool>, n: nat)
    requires n <= 2
    ensures var v := Clicks(content, isMobiles, Int(n));
            && n + |v.tabs| <= 2
            && Kinds(v.tabs) == [TikTok, Shopee][n..n + |v.tabs|]
            && forall l :: l in v.tabs ==> IsContentLink(content, l)
  {
    ClicksFollowGateOrder(content, isMobiles, n);
    ClicksOpenContentLinks(content, isMobiles, Int(n));
  }

  /** A fresh mobile visit: the first click opens TikTok and keeps the
      overlay, the second opens Shopee and removes it, a third opens
      nothing. */
  lemma FreshMobileVisit(content: Db.Content)
    ensures Clicks(Some(content), [true], Int(0)).tabs == [Link(TikTok, content.tiktokLink)]
    ensures ShouldShowOverlay(Clicks(Some(content), [true], Int(0)).count, true)
    ensures Clicks(Some(content), [true, true], Int(0))
         == Visit(Int(2), [Link(TikTok, content.tiktokLink), Link(Shopee, content.shopeeLink)])
    ensures !ShouldShowOverlay(Int(2), true)
    ensures Clicks(Some(content), [true, true, true], Int(0)) == Clicks(Some(content), [true, true], Int(0))
  {
    assert [true, true][1..] == [true];
    assert [true, true, true][1..] == [true, true];
  }

  /** A fresh desktop visit: one click opens TikTok and removes the overlay;
      Shopee is never offered. */
  lemma FreshDesktopVisit(content: Db.Content)
    ensures Clicks(Some(content), [false], Int(0)) == Visit(Int(1), [Link(TikTok, content.tiktokLink)])
    ensures !ShouldShowOverlay(Int(1), false)
    ensures Clicks(Some(content), [false, false], Int(0)) == Clicks(Some(content), [false], Int(0))
  {
    assert [false, false][1..] == [false];
  }

  // ---------------------------------------------------------------------
  // Rendering and the escape screen

  /** The screens the page can show, in the order it checks for them. The
      gated videos carry the overlay button's label while the overlay is
      up. */
  datatype Screen =
    | Loading
    | NoContent
      /** The "open in browser" screen; `safariSteps` picks the iOS manual
          instructions over the Chrome ones. */
    | EscapeScreen(safariSteps: bool)
    | GatedVideos(overlay: bool, button: Option<string>)

  /** The static label the page puts on its overlay button. */
  const PageButtonLabel: string := "Click để xem video"

  /** The screen for the page's state: the loading text, the "no content"
      notice, the escape screen inside an in-app browser, else the videos,
      blurred under an overlay while the gate holds. */
  function Render(loading: bool, content: Option<Db.Content>, inApp: bool, isIOS: bool, isMobile: bool, count: Num): (s: Screen)
    ensures loading ==> s == Loading
    ensures !loading && content.None? ==> s == NoContent
    ensures !loading && content.Some? ==> (s.EscapeScreen? <==> inApp) && (!inApp ==> s.GatedVideos?)
    ensures s.EscapeScreen? ==> s.safariSteps == isIOS
    ensures s.GatedVideos? ==> !loading && content.Some? && !inApp
    ensures s.GatedVideos? ==> (s.overlay <==> NextAction(count, isMobile) != Play || count.Below(0))
    ensures s.GatedVideos? ==> (s.button.Some? <==> s.overlay) && (s.button.Some? ==> s.button.value == PageButtonLabel)
  {
    if loading then Loading
    else if content.None? then NoContent
    else if inApp then EscapeScreen(isIOS)
    else
      var overlay := ShouldShowOverlay(count, isMobile);
      GatedVideos(overlay, if overlay then Some(PageButtonLabel) else None)
  }

  /** The page labels its overlay button with a fixed text: while a link
      remains, the button shows the label of `getButtonText` in
      `lib/utils.ts` without its progress counter. */
  lemma PageButtonOmitsProgress(content: Db.Content, isMobile: bool, n: nat)
    requires n < |RequiredLinks(isMobile)|
    ensures Render(false, Some(content), false, false, isMobile, Int(n)) == GatedVideos(true, Some(PageButtonLabel))
    ensures ButtonText(Int(n), isMobile)
         == PageButtonLabel + " (" + NumberToString(Int(n + 1)) + "/"
            + NumberToString(Int(|RequiredLinks(isMobile)| + 1)) + ")"
  {
    ProgressLabel(n, isMobile);
  }

  /** The escape screen's "open in browser" button: the intent URL on
      Android, the `/api/open` redirect page otherwise. */
  function OpenExternal(ua: string, href: string, enc: string -> string): (target: string)
    ensures IsInAppBrowser(ua) ==> target == IntentUrl(href, enc)
    ensures IsAndroid(ua) ==> target == IntentUrl(href, enc)
    ensures !IsAndroid(ua) ==> target == "/api/open?url=" + enc(href)
  {
    if IsAndroid(ua) then IntentUrl(href, enc) else "/api/open?url=" + enc(href)
  }

  /** Whenever the escape screen can be shown, its button navigates to the
      same intent URL the mount effect already used: the `/api/open` branch
      is unreachable from this page while the user agent stays the same. */
  lemma EscapeButtonRepeatsIntent(innerWidth: int, ua: string, href: string, saved: Option<string>,
                                  enc: string -> string, loading: bool, content: Option<Db.Content>, count: Num)
    requires var m := OnMount(innerWidth, ua, href, saved, enc);
             Render(loading, content, m.inApp, m.isIOS, m.isMobile, count).EscapeScreen?
    ensures OnMount(innerWidth, ua, href, saved, enc).navigateTo == Some(OpenExternal(ua, href, enc))
  {
  }

  /** An Android user agent carrying an app token is escaped through the
      intent URL. */
  lemma AndroidInAppEscapes(a: string, b: string, c: string, token: string, innerWidth: int,
                            href: string, saved: Option<string>, enc: string -> string)
    requires token in InAppTokens
    ensures OnMount(innerWidth, a + "Android" + b + token + c, href, saved, enc).navigateTo
         == Some(IntentUrl(href, enc))
  {
    var ua := a + "Android" + b + token + c;
    assert ua == a + "Android" + (b + token + c);
    ContainsIgnoreCaseWitness(a, "Android", b + token + c);
    assert ua == (a + "Android" + b) + token + c;
    ContainsIgnoreCaseWitness(a + "Android" + b, token, c);
  }

  /** A user agent without "android" is never escaped, whatever app it
      names: an iPhone Facebook browser gets the gated page itself. */
  lemma NonAndroidNeverEscapes(innerWidth: int, ua: string, href: string, saved: Option<string>,
                               enc: string -> string, content: Db.Content, count: Num)
    requires !IsAndroid(ua)
    ensures var m := OnMount(innerWidth, ua, href, saved, enc);
            m.navigateTo.None? && Render(false, Some(content), m.inApp, m.isIOS, m.isMobile, count).GatedVideos?
  {
  }

  /** The escape screen's Safari instructions are reachable only for a user
      agent that names both Android and an Apple device: a genuine iPhone
      in-app browser is never classed as in-app, so it gets the videos. */
  lemma SafariStepsNeedAndroid(innerWidth: int, ua: string, href: string, saved: Option<string>,
                               enc: string -> string, content: Db.Content, count: Num)
    ensures var m := OnMount(innerWidth, ua, href, saved, enc);
            Render(false, Some(content), m.inApp, m.isIOS, m.isMobile, count) == EscapeScreen(true)
            <==> IsAndroid(ua) && NamesInAppToken(ua) && IsIOS(ua)
  {
  }
}

=== FILE: js.dfy ===
/** The slice of JavaScript semantics the site relies on: truthiness of
    request-body fields, and the numbers that `parseInt` and `toString` move
    between the click counter and its stored string. */
module Js {

  /** A field of a parsed JSON request body: absent (`undefined`), `null`, or
      a value. */
  datatype JsValue<+T> = Undefined | Null | Val(v: T)

  /** JavaScript truthiness of a string field: `undefined`, `null` and `""`
      are falsy. */
  predicate Truthy(x: JsValue<string>) {
    x.Val? && x.v != ""
  }

  /** The integral JavaScript numbers the click counter can hold: `parseInt`
      yields an integer or `NaN`. */
  datatype Num = Int(value: int) | NaN {

    /** `this < k`: false for `NaN`. */
    predicate Below(k: int) {
      Int? && value < k
    }

    /** `this === k`: false for `NaN`. */
    predicate Is(k: int) {
      Int? && value == k
    }
  }

  predicate IsDecimalDigit(c: char) {
    '0' <= c <= '9'
  }

  predicate IsHexLetter(c: char) {
    'a' <= c <= 'f' || 'A' <= c <= 'F'
  }

  /** A digit of radix 10 or 16, as `parseInt` accepts them. */
  predicate IsRadixDigit(c: char, radix: nat) {
    IsDecimalDigit(c) || (radix == 16 && IsHexLetter(c))
  }

  function DigitValue(c: char): nat
    requires IsDecimalDigit(c) || IsHexLetter(c)
  {
    if IsDecimalDigit(c) then c as int - '0' as int
    else if 'a' <= c <= 'f' then c as int - 'a' as int + 10
    else c as int - 'A' as int + 10
  }

  function DecimalChar(d: nat): (c: char)
    requires d < 10
    ensures IsDecimalDigit(c) && DigitValue(c) == d
  {
    ('0' as int + d) as char
  }

  /** The decimal numeral of `n`, without leading zeros. */
  function Decimal(n: nat): (s: string)
    ensures |s| > 0
    ensures forall i :: 0 <= i < |s| ==> IsDecimalDigit(s[i])
    ensures |s| > 1 ==> s[0] != '0'
  {
    if n < 10 then [DecimalChar(n)] else Decimal(n / 10) + [DecimalChar(n % 10)]
  }

  /** `Number.prototype.toString()` on the click counter's values. */
  function NumberToString(x: Num): string {
    match x
    case NaN => "NaN"
    case Int(n) => if n < 0 then "-" + Decimal(-n) else Decimal(n)
  }

  /** `StrWhiteSpaceChar` of ECMAScript: the characters `parseInt` skips
      before the numeral (white space and line terminators). */
  predicate IsStrWhiteSpace(c: char) {
    var k := c as int;
    k == 0x09 || k == 0x0A || k == 0x0B || k == 0x0C || k == 0x0D || k == 0x20
    || k == 0xA0 || k == 0x1680 || (0x2000 <= k <= 0x200A) || k == 0x2028
    || k == 0x2029 || k == 0x202F || k == 0x205F || k == 0x3000 || k == 0xFEFF
  }

  function TrimStart(s: string): (r: string)
    ensures |r| <= |s| && r == s[|s| - |r|..]
    ensures r == [] || !IsStrWhiteSpace(r[0])
    ensures forall i :: 0 <= i < |s| - |r| ==> IsStrWhiteSpace(s[i])
  {
    if s != [] && IsStrWhiteSpace(s[0]) then TrimStart(s[1..]) else s
  }

  /** Length of the longest prefix of `s` made of radix digits. */
  function DigitRun(s: string, radix: nat): (k: nat)
    ensures k <= |s|
    ensures forall i :: 0 <= i < k ==> IsRadixDigit(s[i], radix)
    ensures k < |s| ==> !IsRadixDigit(s[k], radix)
  {
    if s != [] && IsRadixDigit(s[0], radix) then 1 + DigitRun(s[1..], radix) else 0
  }

  /** The value of a numeral in radix 10 or 16. */
  function NumeralValue(s: string, radix: nat): nat
    requires forall i :: 0 <= i < |s| ==> IsDecimalDigit(s[i]) || IsHexLetter(s[i])
  {
    if s == [] then 0
    else NumeralValue(s[..|s| - 1], radix) * radix + DigitValue(s[|s| - 1])
  }

  /** Global `parseInt(s)` with no radix: skip leading white space, take an
      optional sign, then read an unsigned numeral; no digits at all gives
      `NaN`. */
  function ParseInt(s: string): Num {
    var t := TrimStart(s);
    if t != [] && t[0] == '-' then Negate(ParseMagnitude(t[1..]))
    else if t != [] && t[0] == '+' then ParseMagnitude(t[1..])
    else ParseMagnitude(t)
  }

  function Negate(x: Num): Num {
    match x
    case NaN => NaN
    case Int(n) => Int(-n)
  }

  /** The unsigned part of `parseInt`: radix 16 after a `0x`/`0X` prefix,
      radix 10 otherwise, then the longest run of digits of that radix. */
  function ParseMagnitude(u: string): Num {
    var hex := |u| >= 2 && u[0] == '0' && (u[1] == 'x' || u[1] == 'X');
    var radix := if hex then 16 else 10;
    var digits := if hex then u[2..] else u;
    var k := DigitRun(digits, radix);
    if k == 0 then NaN else Int(NumeralValue(digits[..k], radix))
  }

  lemma {:induction false} DecimalValue(n: nat)
    ensures NumeralValue(Decimal(n), 10) == n
  {
    if n >= 10 {
      var s := Decimal(n);
      assert s[..|s| - 1] == Decimal(n / 10);
      DecimalValue(n / 10);
    }
  }

  /** `parseInt` reads back every value `toString` writes, including `NaN`. */
  lemma ParseIntRoundTrip(x: Num)
    ensures ParseInt(NumberToString(x)) == x
  {
    match x
    case NaN =>
      ParseIntOfNaN();
    case Int(n) =>
      if n < 0 {
        ParseIntOfNegative(-n);
      } else {
        ParseIntOfNumeral(n);
      }
  }

  lemma ParseIntOfNaN()
    ensures ParseInt("NaN") == NaN
  {
    assert TrimStart("NaN") == "NaN";
    assert DigitRun("NaN", 10) == 0;
  }

  /** A decimal numeral parses to its value. */
  lemma ParseIntOfNumeral(m: nat)
    ensures ParseInt(Decimal(m)) == Int(m)
  {
    var d := Decimal(m);
    assert !IsStrWhiteSpace(d[0]);
    assert TrimStart(d) == d;
    ParseMagnitudeOfNumeral(m);
  }

  /** A minus sign followed by a decimal numeral parses to the negated value. */
  lemma ParseIntOfNegative(m: nat)
    ensures ParseInt("-" + Decimal(m)) == Int(-(m as int))
  {
    var s := "-" + Decimal(m);
    assert !IsStrWhiteSpace(s[0]);
    assert TrimStart(s) == s;
    assert s[1..] == Decimal(m);
    ParseMagnitudeOfNumeral(m);
  }

  lemma ParseMagnitudeOfNumeral(m: nat)
    ensures ParseMagnitude(Decimal(m)) == Int(m)
  {
    var d := Decimal(m);
    DigitRunOfNumeral(d);
    assert d[..|d|] == d;
    DecimalValue(m);
  }

  lemma {:induction false} DigitRunOfNumeral(d: string)
    requires forall i :: 0 <= i < |d| ==> IsDecimalDigit(d[i])
    ensures DigitRun(d, 10) == |d|
  {
    if d != [] {
      DigitRunOfNumeral(d[1..]);
    }
  }
}

=== FILE: open_route.dfy ===
/** `GET /api/open?url=…` of `app/api/open/route.ts`: the same-origin hop
    that the iOS escape uses. It picks a target, sanitises it, and returns a
    page whose link is auto-clicked after 300 ms, with a plain navigation to
    the same address after 1500 ms as a fallback. */
module OpenRoute {
  import opened Wrappers
  import opened Text

  /** The `url` query parameter, or the request origin when it is missing or
      empty. */
  function Target(urlParam: Option<string>, origin: string): (t: string)
    ensures urlParam.Some? && urlParam.value != "" ==> t == urlParam.value
    ensures urlParam.None? || urlParam.value == "" ==> t == origin
  {
    if urlParam.Some? && urlParam.value != "" then urlParam.value else origin
  }

  /** The targets the hop forwards to as given: `https://` addresses and
      anything starting with `/` (same-origin paths, but also the
      protocol-relative `//host`). */
  predicate Allowed(target: string) {
    StartsWith(target, "https://") || StartsWith(target, "/")
  }

  function SafeUrl(target: string, origin: string): (safe: string)
    ensures safe == target || safe == origin
    ensures Allowed(safe) || safe == origin
  {
    if Allowed(target) then target else origin
  }

  /** The redirect page: the anchor's address, the fallback navigation's
      address, and the two timer delays in milliseconds. */
  datatype OpenPage = OpenPage(anchorHref: string, fallbackHref: string, autoClickDelay: nat, fallbackDelay: nat)

  function HandleOpen(urlParam: Option<string>, origin: string): (p: OpenPage)
    ensures p.anchorHref == p.fallbackHref
    ensures p.autoClickDelay < p.fallbackDelay
    ensures p.anchorHref == SafeUrl(Target(urlParam, origin), origin)
  {
    var safe := SafeUrl(Target(urlParam, origin), origin);
    OpenPage(safe, safe, 300, 1500)
  }

  /** The sanitiser keeps a target exactly when it is allowed (or when it is
      the origin itself), and replaces everything else by the origin. */
  lemma SafeUrlKeepsExactlyAllowed(target: string, origin: string)
    ensures SafeUrl(target, origin) == target <==> Allowed(target) || target == origin
    ensures !Allowed(target) ==> SafeUrl(target, origin) == origin
  {
  }

  /** Sanitising twice is sanitising once. */
  lemma SafeUrlIdempotent(target: string, origin: string)
    ensures SafeUrl(SafeUrl(target, origin), origin) == SafeUrl(target, origin)
  {
  }

  /** A missing or empty `url` sends the visitor to the origin. */
  lemma MissingUrlGoesToOrigin(origin: string)
    ensures HandleOpen(None, origin).anchorHref == origin
    ensures HandleOpen(Some(""), origin).anchorHref == origin
  {
  }

  /** Other schemes are refused: `http:`, `javascript:` and `data:` targets
      all become the origin. */
  lemma OtherSchemesGoToOrigin(rest: string, origin: string)
    ensures SafeUrl("http:" + rest, origin) == origin
    ensures SafeUrl("javascript:" + rest, origin) == origin
    ensures SafeUrl("data:" + rest, origin) == origin
  {
    assert ("http:" + rest)[0] == 'h' && ("http:" + rest)[4] == ':';
    assert ("javascript:" + rest)[0] == 'j';
    assert ("data:" + rest)[0] == 'd';
  }

  /** Only the leading `/` is checked, so a protocol-relative `//host`
      target, which leaves the origin, passes unchanged. */
  lemma ProtocolRelativePasses(host: string, origin: string)
    ensures SafeUrl("//" + host, origin) == "//" + host
  {
    assert StartsWith("//" + host, "/");
  }
}

=== FILE: pages_route.dfy ===
/** `/api/pages` of `app/api/pages/route.ts`: the admin CRUD over landing
    pages. `GET` looks a page up by slug (or lists all pages), falling back
    to the demo pages; `POST` validates and creates a page with a fresh
    slug; `PUT` merges the non-empty fields of the body into a page; `DELETE`
    removes one by id.

    Prisma is the `page` table as a sequence of rows plus a fault (see
    `Db`). The id and timestamp Prisma generates for a new row are
    parameters. Request fields are `JsValue`s, so `undefined`, `null` and
    `""` are told apart where the code tells them apart. */
module PagesRoute {
  import opened Wrappers
  import opened Js
  import opened Db

  datatype PageBody = PageBody(
    id: JsValue<string>,
    slug: JsValue<string>,
    title: JsValue<string>,
    description: JsValue<string>,
    video1Url: JsValue<string>,
    video2Url: JsValue<string>,
    tiktokLink: JsValue<string>,
    shopeeLink: JsValue<string>,
    isActive: JsValue<bool>)

  datatype PagesResponse =
    | OnePage(found: Option<Page>)    // 200 { page }
    | AllPages(pages: seq<Page>)      // 200 { pages }
    | Saved(page: Page)               // 200 { success, page }
    | Removed                         // 200 { success }
    | BadRequest(error: string)       // 400
    | ServerError(error: string)      // 500

  /** A handler's response and the table it leaves behind. */
  datatype Outcome = Outcome(response: PagesResponse, rows: seq<Page>)

  const SlugTaken: string := "Slug already exists. Please use a different slug."

  /** No two rows share a slug (the column the routes look pages up by). */
  predicate UniqueSlugs(rows: seq<Page>) {
    forall i, j :: 0 <= i < j < |rows| ==> rows[i].slug != rows[j].slug
  }

  /** No two rows share an id. */
  predicate UniqueIds(rows: seq<Page>) {
    forall i, j :: 0 <= i < j < |rows| ==> rows[i].id != rows[j].id
  }

  predicate ValidTable(rows: seq<Page>) {
    UniqueSlugs(rows) && UniqueIds(rows)
  }

  /** The first row with the given slug: `findUnique({ where: { slug } })` on
      the table, and `Array.prototype.find` on the demo pages. */
  function FindBySlug(rows: seq<Page>, slug: string): (r: Option<Page>)
    ensures r.Some? ==> r.value in rows && r.value.slug == slug
    ensures r.None? ==> forall i :: 0 <= i < |rows| ==> rows[i].slug != slug
  {
    if rows == [] then None
    else if rows[0].slug == slug then Some(rows[0])
    else FindBySlug(rows[1..], slug)
  }

  predicate SortedByCreation(rows: seq<Page>) {
    forall i, j :: 0 <= i < j < |rows| ==> rows[i].createdAt <= rows[j].createdAt
  }

  /** A row no later than the head of a sorted listing can go in front. */
  lemma SortedCons(a: Page, rows: seq<Page>)
    requires SortedByCreation(rows)
    requires rows != [] ==> a.createdAt <= rows[0].createdAt
    ensures SortedByCreation([a] + rows)
  {
    var r := [a] + rows;
    forall i, j | 0 <= i < j < |r|
      ensures r[i].createdAt <= r[j].createdAt
    {
      if i == 0 {
        assert r[j] == rows[j - 1];
        assert rows[0].createdAt <= rows[j - 1].createdAt || j == 1;
      } else {
        assert r[i] == rows[i - 1] && r[j] == rows[j - 1];
      }
    }
  }

  function InsertByCreation(p: Page, rows: seq<Page>): (r: seq<Page>)
    requires SortedByCreation(rows)
    ensures SortedByCreation(r)
    ensures multiset(r) == multiset(rows) + multiset{p}
    ensures r[0] == p || (rows != [] && r[0] == rows[0])
  {
    if rows == [] || p.createdAt <= rows[0].createdAt then
      SortedCons(p, rows);
      [p] + rows
    else
      assert rows == [rows[0]] + rows[1..];
      var rest := InsertByCreation(p, rows[1..]);
      assert rest[0] == p || rest[0] == rows[1];
      SortedCons(rows[0], rest);
      [rows[0]] + rest
  }

  /** `findMany({ orderBy: { createdAt: 'asc' } })`: the rows, oldest first. */
  function SortByCreation(rows: seq<Page>): (r: seq<Page>)
    ensures SortedByCreation(r)
    ensures multiset(r) == multiset(rows)
  {
    if rows == [] then []
    else
      assert rows == [rows[0]] + rows[1..];
      InsertByCreation(rows[0], SortByCreation(rows[1..]))
  }

  // ---------------------------------------------------------------------
  // GET

  /** `GET`: with a non-empty `slug`, the stored page, else the demo page
      with that slug, else null; without one, all pages oldest first, or the
      demo pages when there are none. A failing query falls back to the demo
      pages too. */
  function HandleGet(slugParam: Option<string>, rows: seq<Page>, fault: Fault, mockPages: seq<Page>): (r: PagesResponse)
    ensures slugParam.Some? && slugParam.value != "" ==> r.OnePage?
    ensures r.OnePage? && r.found.Some? ==>
              slugParam.Some? && r.found.value.slug == slugParam.value && (r.found.value in rows || r.found.value in mockPages)
    ensures !(slugParam.Some? && slugParam.value != "") ==> r.AllPages?
    ensures r.AllPages? && r.pages != mockPages ==> SortedByCreation(r.pages) && multiset(r.pages) == multiset(rows)
    ensures slugParam.Some? && slugParam.value != "" && !Throws(fault, 0) && FindBySlug(rows, slugParam.value).Some?
            ==> r == OnePage(FindBySlug(rows, slugParam.value))
    ensures slugParam.Some? && slugParam.value != "" && (Throws(fault, 0) || FindBySlug(rows, slugParam.value).None?)
            ==> r == OnePage(FindBySlug(mockPages, slugParam.value))
    ensures !(slugParam.Some? && slugParam.value != "") && !Throws(fault, 0) && rows != []
            ==> r == AllPages(SortByCreation(rows))
    ensures !(slugParam.Some? && slugParam.value != "") && (Throws(fault, 0) || rows == [])
            ==> r == AllPages(mockPages)
  {
    if slugParam.Some? && slugParam.value != "" then
      var slug := slugParam.value;
      if Throws(fault, 0) then OnePage(FindBySlug(mockPages, slug))
      else
        match FindBySlug(rows, slug)
        case None => OnePage(FindBySlug(mockPages, slug))
        case Some(p) => OnePage(Some(p))
    else if Throws(fault, 0) || rows == [] then AllPages(mockPages)
    else AllPages(SortByCreation(rows))
  }

  /** On a table with unique slugs, a reachable stored page is served by
      its slug, whatever the demo pages hold. */
  lemma GetServesStoredPage(p: Page, rows: seq<Page>, mockPages: seq<Page>)
    requires UniqueSlugs(rows) && p in rows && p.slug != ""
    ensures HandleGet(Some(p.slug), rows, None, mockPages) == OnePage(Some(p))
  {
    var found := FindBySlug(rows, p.slug);
    var i :| 0 <= i < |rows| && rows[i] == p;
    var k :| 0 <= k < |rows| && rows[k] == found.value;
    assert k == i;
  }

  /** A reachable, non-empty table is listed in full, oldest first, and
      never replaced by the demo pages. */
  lemma GetListsStoredPages(rows: seq<Page>, mockPages: seq<Page>)
    requires rows != []
    ensures var r := HandleGet(None, rows, None, mockPages);
            && r.AllPages? && SortedByCreation(r.pages)
            && multiset(r.pages) == multiset(rows)
            && (forall p :: p in rows <==> p in r.pages)
  {
    var r := HandleGet(None, rows, None, mockPages);
    forall p
      ensures p in rows <==> p in r.pages
    {
      assert p in rows <==> p in multiset(rows);
      assert p in r.pages <==> p in multiset(r.pages);
    }
  }

  // ---------------------------------------------------------------------
  // POST

  /** The seven fields `POST` demands, all truthy. */
  predicate HasRequiredFields(b: PageBody) {
    && Truthy(b.slug) && Truthy(b.title) && Truthy(b.description)
    && Truthy(b.video1Url) && Truthy(b.video2Url)
    && Truthy(b.tiktokLink) && Truthy(b.shopeeLink)
  }

  /** `POST`: validate, refuse a taken slug, create the page (`isActive`
      defaulting to true when it is absent). `body` is `None` when the
      request is not JSON. Prisma refuses a `null` `isActive` and a
      duplicate id. */
  function HandlePost(body: Option<PageBody>, rows: seq<Page>, fault: Fault, freshId: string, now: int): (o: Outcome)
    ensures !o.response.Saved? ==> o.rows == rows
    ensures o.response.Saved? ==> o.rows == rows + [o.response.page]
    ensures o.response.Saved? ==> body.Some? && HasRequiredFields(body.value)
    ensures body.Some? && !HasRequiredFields(body.value) ==> o.response == BadRequest("All fields are required")
    ensures body.Some? && HasRequiredFields(body.value) && !Throws(fault, 0)
            && (exists q :: q in rows && q.slug == body.value.slug.v)
            ==> o.response == BadRequest(SlugTaken)
    ensures o.response.Saved? <==>
              && body.Some? && HasRequiredFields(body.value)
              && !Throws(fault, 0) && !Throws(fault, 1)
              && (forall q :: q in rows ==> q.slug != body.value.slug.v)
              && !body.value.isActive.Null?
              && (forall q :: q in rows ==> q.id != freshId)
    ensures o.response.BadRequest? <==>
              && body.Some?
              && (|| !HasRequiredFields(body.value)
                  || (!Throws(fault, 0) && exists q :: q in rows && q.slug == body.value.slug.v))
    ensures !o.response.Saved? && !o.response.BadRequest? ==> o.response == ServerError("Failed to create page")
  {
    match body
    case None => Outcome(ServerError("Failed to create page"), rows)
    case Some(b) =>
      if !HasRequiredFields(b) then Outcome(BadRequest("All fields are required"), rows)
      else if Throws(fault, 0) then Outcome(ServerError("Failed to create page"), rows)
      else if FindBySlug(rows, b.slug.v).Some? then Outcome(BadRequest(SlugTaken), rows)
      else if b.isActive.Null? || Throws(fault, 1) || IndexOfKey(rows, PageId, freshId).Some? then
        Outcome(ServerError("Failed to create page"), rows)
      else
        var page := Page(freshId, b.slug.v, b.title.v, b.description.v, b.video1Url.v, b.video2Url.v,
                         b.tiktokLink.v, b.shopeeLink.v, if b.isActive.Val? then b.isActive.v else true, now);
        Outcome(Saved(page), rows + [page])
  }

  /** A created page carries the body's fields, is active unless the body
      says otherwise, and has a slug no earlier page had. */
  lemma PostCreatesFromBody(body: Option<PageBody>, rows: seq<Page>, fault: Fault, freshId: string, now: int)
    ensures var o := HandlePost(body, rows, fault, freshId, now);
            o.response.Saved? ==>
              var b := body.value;
              var p := o.response.page;
              && p.id == freshId && p.slug == b.slug.v && p.title == b.title.v
              && p.description == b.description.v
              && p.video1Url == b.video1Url.v && p.video2Url == b.video2Url.v
              && p.tiktokLink == b.tiktokLink.v && p.shopeeLink == b.shopeeLink.v
              && p.createdAt == now
              && (b.isActive.Undefined? ==> p.isActive)
              && (b.isActive.Val? ==> p.isActive == b.isActive.v)
              && forall q :: q in rows ==> q.slug != p.slug && q.id != p.id
  {
    var o := HandlePost(body, rows, fault, freshId, now);
    if o.response.Saved? {
      var b := body.value;
      forall q | q in rows
        ensures q.slug != o.response.page.slug && q.id != o.response.page.id
      {
        var i :| 0 <= i < |rows| && rows[i] == q;
      }
    }
  }

  /** `POST` keeps slugs and ids unique. */
  lemma PostKeepsTableValid(body: Option<PageBody>, rows: seq<Page>, fault: Fault, freshId: string, now: int)
    requires ValidTable(rows)
    ensures ValidTable(HandlePost(body, rows, fault, freshId, now).rows)
  {
    PostCreatesFromBody(body, rows, fault, freshId, now);
    var o := HandlePost(body, rows, fault, freshId, now);
    if o.response.Saved? {
      var r := o.rows;
      forall i, j | 0 <= i < j < |r|
        ensures r[i].slug != r[j].slug && r[i].id != r[j].id
      {
        if j == |rows| {
          assert r[i] in rows;
        }
      }
    }
  }

  // ---------------------------------------------------------------------
  // PUT

  /** `...(field && { field })`: a truthy body value replaces the stored
      one; `undefined`, `null` and `""` leave it alone. */
  function Keep(stored: string, field: JsValue<string>): string {
    if Truthy(field) then field.v else stored
  }

  /** The partial update: every truthy string field and a defined
      `isActive` overwrite the page; id and creation time never change. */
  function Merge(p: Page, b: PageBody): Page {
    Page(p.id, Keep(p.slug, b.slug), Keep(p.title, b.title), Keep(p.description, b.description),
         Keep(p.video1Url, b.video1Url), Keep(p.video2Url, b.video2Url),
         Keep(p.tiktokLink, b.tiktokLink), Keep(p.shopeeLink, b.shopeeLink),
         if b.isActive.Val? then b.isActive.v else p.isActive, p.createdAt)
  }

  /** `findUnique({ where: { slug } })` finds no page, or the page with
      the given id. */
  predicate SlugFreeOrOwned(rows: seq<Page>, slug: string, id: string) {
    FindBySlug(rows, slug).None? || FindBySlug(rows, slug).value.id == id
  }

  /** `PUT`: demand an id; refuse a slug owned by another page; then merge
      the body into the page with that id. Prisma throws when no page has the
      id and when `isActive` is `null`. */
  function HandlePut(body: Option<PageBody>, rows: seq<Page>, fault: Fault): (o: Outcome)
    ensures !o.response.Saved? ==> o.rows == rows
    ensures body.Some? && !Truthy(body.value.id) ==> o.response == BadRequest("Page ID is required")
    ensures o.response.Saved? ==>
              && body.Some? && Truthy(body.value.id)
              && (exists i :: 0 <= i < |rows| && rows[i].id == body.value.id.v
                   && o.response.page == Merge(rows[i], body.value) && o.rows == rows[i := o.response.page])
    ensures o.response.Saved? <==>
              && body.Some? && Truthy(body.value.id)
              && !Throws(fault, 0) && (Truthy(body.value.slug) ==> !Throws(fault, 1))
              && (Truthy(body.value.slug) ==> SlugFreeOrOwned(rows, body.value.slug.v, body.value.id.v))
              && !body.value.isActive.Null?
              && (exists q :: q in rows && q.id == body.value.id.v)
    ensures o.response.BadRequest? <==>
              && body.Some?
              && (|| !Truthy(body.value.id)
                  || (&& Truthy(body.value.slug) && !Throws(fault, 0)
                      && !SlugFreeOrOwned(rows, body.value.slug.v, body.value.id.v)))
    ensures !o.response.Saved? && !o.response.BadRequest? ==> o.response == ServerError("Failed to update page")
  {
    match body
    case None => Outcome(ServerError("Failed to update page"), rows)
    case Some(b) =>
      if !Truthy(b.id) then Outcome(BadRequest("Page ID is required"), rows)
      else if Truthy(b.slug) && Throws(fault, 0) then Outcome(ServerError("Failed to update page"), rows)
      else if Truthy(b.slug) && FindBySlug(rows, b.slug.v).Some? && FindBySlug(rows, b.slug.v).value.id != b.id.v then
        Outcome(BadRequest(SlugTaken), rows)
      else if Throws(fault, if Truthy(b.slug) then 1 else 0) || b.isActive.Null? then
        Outcome(ServerError("Failed to update page"), rows)
      else
        match IndexOfKey(rows, PageId, b.id.v)
        case None => Outcome(ServerError("Failed to update page"), rows)
        case Some(i) =>
          var page := Merge(rows[i], b);
          Outcome(Saved(page), rows[i := page])
  }

  /** A slug owned by a different page is refused, and nothing changes. */
  lemma PutRefusesForeignSlug(b: PageBody, rows: seq<Page>, fault: Fault, i: nat)
    requires ValidTable(rows) && i < |rows|
    requires Truthy(b.id) && Truthy(b.slug) && !Throws(fault, 0)
    requires rows[i].slug == b.slug.v && rows[i].id != b.id.v
    ensures HandlePut(Some(b), rows, fault) == Outcome(BadRequest(SlugTaken), rows)
  {
    var found := FindBySlug(rows, b.slug.v);
    var k :| 0 <= k < |rows| && rows[k] == found.value;
    assert k == i;
  }

  /** A page may keep its own slug: on a table with unique slugs, an update
      that repeats the slug of the page being updated is saved. */
  lemma PutKeepsOwnSlug(b: PageBody, rows: seq<Page>, i: nat)
    requires ValidTable(rows) && i < |rows|
    requires Truthy(b.id) && rows[i].id == b.id.v && b.slug == Val(rows[i].slug)
    requires !b.isActive.Null?
    ensures HandlePut(Some(b), rows, None) == Outcome(Saved(Merge(rows[i], b)), rows[i := Merge(rows[i], b)])
  {
    if Truthy(b.slug) {
      var found := FindBySlug(rows, b.slug.v);
      var k :| 0 <= k < |rows| && rows[k] == found.value;
      assert k == i;
    }
    assert IndexOfKey(rows, PageId, b.id.v) == Some(i);
  }

  /** Falsy string fields leave the page alone, while `isActive` follows any
      defined value, so `false` can be set. */
  lemma PutKeepsFalsyFields(b: PageBody, rows: seq<Page>, fault: Fault)
    ensures var o := HandlePut(Some(b), rows, fault);
            o.response.Saved? ==>
              exists i :: 0 <= i < |rows| && rows[i].id == b.id.v && o.rows[i] == o.response.page
                && (!Truthy(b.title) ==> o.response.page.title == rows[i].title)
                && (!Truthy(b.slug) ==> o.response.page.slug == rows[i].slug)
                && (!Truthy(b.description) ==> o.response.page.description == rows[i].description)
                && (!Truthy(b.video1Url) ==> o.response.page.video1Url == rows[i].video1Url)
                && (!Truthy(b.video2Url) ==> o.response.page.video2Url == rows[i].video2Url)
                && (!Truthy(b.tiktokLink) ==> o.response.page.tiktokLink == rows[i].tiktokLink)
                && (!Truthy(b.shopeeLink) ==> o.response.page.shopeeLink == rows[i].shopeeLink)
                && (b.isActive.Val? ==> o.response.page.isActive == b.isActive.v)
                && (b.isActive.Undefined? ==> o.response.page.isActive == rows[i].isActive)
  {
  }

  /** `PUT` keeps slugs and ids unique: the new slug is either free or
      already the page's own. */
  lemma PutKeepsTableValid(body: Option<PageBody>, rows: seq<Page>, fault: Fault)
    requires ValidTable(rows)
    ensures ValidTable(HandlePut(body, rows, fault).rows)
  {
    var o := HandlePut(body, rows, fault);
    if o.response.Saved? {
      var b := body.value;
      var i := IndexOfKey(rows, PageId, b.id.v).value;
      var r := o.rows;
      if Truthy(b.slug) {
        var found := FindBySlug(rows, b.slug.v);
        if found.Some? {
          var k :| 0 <= k < |rows| && rows[k] == found.value;
          assert k == i;
        }
      }
      forall x, y | 0 <= x < y < |r|
        ensures r[x].slug != r[y].slug && r[x].id != r[y].id
      {
      }
    }
  }

  // ---------------------------------------------------------------------
  // DELETE

  /** `DELETE`: demand a non-empty `id` parameter, then remove that page;
      Prisma throws when no page has the id. */
  function HandleDelete(idParam: Option<string>, rows: seq<Page>, fault: Fault): (o: Outcome)
    ensures !(idParam.Some? && idParam.value != "") ==> o == Outcome(BadRequest("Page ID is required"), rows)
    ensures !o.response.Removed? ==> o.rows == rows
    ensures o.response.Removed? ==>
              && idParam.Some?
              && (exists i :: 0 <= i < |rows| && rows[i].id == idParam.value && o.rows == rows[..i] + rows[i + 1..])
    ensures o.response.Removed? <==>
              && idParam.Some? && idParam.value != "" && !Throws(fault, 0)
              && (exists q :: q in rows && q.id == idParam.value)
    ensures o.response.BadRequest? <==> !(idParam.Some? && idParam.value != "")
    ensures !o.response.Removed? && !o.response.BadRequest? ==> o.response == ServerError("Failed to delete page")
  {
    if !(idParam.Some? && idParam.value != "") then Outcome(BadRequest("Page ID is required"), rows)
    else if Throws(fault, 0) then Outcome(ServerError("Failed to delete page"), rows)
    else
      match IndexOfKey(rows, PageId, idParam.value)
      case None => Outcome(ServerError("Failed to delete page"), rows)
      case Some(i) => Outcome(Removed, rows[..i] + rows[i + 1..])
  }

  /** Removing position `i` keeps every other row, in order, and keeps
      slugs and ids unique. */
  lemma RemoveAt(rows: seq<Page>, i: nat)
    requires ValidTable(rows) && i < |rows|
    ensures var r := rows[..i] + rows[i + 1..];
            && ValidTable(r)
            && |r| == |rows| - 1
            && (forall k :: 0 <= k < |r| ==> r[k] == rows[if k < i then k else k + 1])
  {
    var r := rows[..i] + rows[i + 1..];
    assert forall k :: 0 <= k < |r| ==> r[k] == rows[if k < i then k else k + 1];
  }

  /** On a valid table a delete removes exactly the page with that id. */
  lemma DeleteRemovesOnlyThatPage(idParam: Option<string>, rows: seq<Page>, fault: Fault)
    requires ValidTable(rows)
    ensures var o := HandleDelete(idParam, rows, fault);
            && ValidTable(o.rows)
            && (o.response.Removed? ==>
                  && (forall p :: p in o.rows ==> p.id != idParam.value)
                  && |o.rows| == |rows| - 1
                  && forall p :: p in rows && p.id != idParam.value ==> p in o.rows)
  {
    var o := HandleDelete(idParam, rows, fault);
    if o.response.Removed? {
      var i := IndexOfKey(rows, PageId, idParam.value).value;
      assert o.rows == rows[..i] + rows[i + 1..];
      RemoveAt(rows, i);
      forall p | p in o.rows
        ensures p.id != idParam.value
      {
        var k :| 0 <= k < |o.rows| && o.rows[k] == p;
      }
      forall p | p in rows && p.id != idParam.value
        ensures p in o.rows
      {
        var k :| 0 <= k < |rows| && rows[k] == p;
        if k < i { assert o.rows[k] == p; } else { assert o.rows[k - 1] == p; }
      }
    }
  }
}

=== FILE: text.dfy ===
/** String search as used by the site: `startsWith`, `includes`, `endsWith`
    and the case-insensitive substring tests of the `/…/i` regular expressions.
    Strings are sequences of characters. */
module Text {

  predicate StartsWith(s: string, prefix: string) {
    |prefix| <= |s| && s[..|prefix|] == prefix
  }

  predicate EndsWith(s: string, suffix: string) {
    |suffix| <= |s| && s[|s| - |suffix|..] == suffix
  }

  /** `p` occurs in `s` starting at index `i`. */
  predicate OccursAt(s: string, p: string, i: int) {
    0 <= i && i + |p| <= |s| && s[i..i + |p|] == p
  }

  /** JavaScript's `s.includes(p)`, computed by scanning left to right. */
  function Contains(s: string, p: string): bool
    decreases |s|
  {
    if |s| < |p| then false
    else StartsWith(s, p) || (|s| > 0 && Contains(s[1..], p))
  }

  /** The scan finds `p` exactly when `p` occurs somewhere in `s`. */
  lemma {:induction false} ContainsIff(s: string, p: string)
    ensures Contains(s, p) <==> exists i :: OccursAt(s, p, i)
    decreases |s|
  {
    if |s| >= |p| && !StartsWith(s, p) && |s| > 0 {
      ContainsIff(s[1..], p);
      if Contains(s[1..], p) {
        var i :| OccursAt(s[1..], p, i);
        assert s[1..][i..i + |p|] == s[i + 1..i + 1 + |p|];
        assert OccursAt(s, p, i + 1);
      }
      if exists i :: OccursAt(s, p, i) {
        var i :| OccursAt(s, p, i);
        if i > 0 {
          assert s[1..][i - 1..i - 1 + |p|] == s[i..i + |p|];
          assert OccursAt(s[1..], p, i - 1);
        }
      }
    } else if |s| >= |p| && StartsWith(s, p) {
      assert OccursAt(s, p, 0);
    }
  }

  /** The scan finds any occurrence that is there. */
  lemma ContainsAt(s: string, p: string, i: int)
    requires OccursAt(s, p, i)
    ensures Contains(s, p)
  {
    ContainsIff(s, p);
  }

  /** ASCII lower-casing, the only case mapping the site's patterns need:
      in a non-Unicode `/i` regular expression, characters are compared after
      upper-casing, and no non-ASCII character is allowed to fold onto an ASCII
      one, so a pattern made of ASCII letters matches exactly the ASCII letters
      in either case. */
  function LowerAscii(c: char): char {
    if 'A' <= c <= 'Z' then (c as int + 32) as char else c
  }

  function Lower(s: string): (r: string)
    ensures |r| == |s|
    ensures forall i :: 0 <= i < |s| ==> r[i] == LowerAscii(s[i])
  {
    seq(|s|, i requires 0 <= i < |s| => LowerAscii(s[i]))
  }

  lemma LowerAppend(a: string, b: string)
    ensures Lower(a + b) == Lower(a) + Lower(b)
  {
  }

  /** `/p/i.test(s)` for a pattern `p` with no regular-expression operators. */
  predicate ContainsIgnoreCase(s: string, p: string) {
    Contains(Lower(s), Lower(p))
  }

  /** A token embedded anywhere in a string is found regardless of case. */
  lemma ContainsIgnoreCaseWitness(a: string, token: string, b: string)
    ensures ContainsIgnoreCase(a + token + b, token)
  {
    LowerAppend(a + token, b);
    LowerAppend(a, token);
    var s := Lower(a + token + b);
    assert s[|a|..|a| + |token|] == Lower(token);
    ContainsAt(s, Lower(token), |a|);
  }
}

=== FILE: upload_delete.dfy ===
/** `POST /api/upload/delete` of `app/api/upload/delete/route.ts`: recovers a
    video's Cloudinary public id from its delivery URL and asks Cloudinary to
    destroy it.

    The two regular expressions of `extractPublicId`,
      /\/upload\/v\d+\/(.+)\.(mp4|mov|avi|webm|mkv)$/   and
      /\/upload\/(.+)\.(mp4|mov|avi|webm|mkv)$/,
    are modelled as leftmost-match searches. Because `$` pins the extension to
    the end of the URL, the greedy group `(.+)` always runs from its start to
    the dot before that extension; it must be non-empty and, since `.` does
    not match line terminators, free of them. */
module UploadDelete {
  import opened Wrappers
  import opened Text
  import opened Js

  /** The endings the patterns accept: a dot and one of five lower-case
      extensions. */
  const DottedExtensions: seq<string> := [".mp4", ".mov", ".avi", ".webm", ".mkv"]

  /** The characters a regular-expression `.` does not match. */
  predicate IsLineTerminator(c: char) {
    c == '\n' || c == '\r' || c as int == 0x2028 || c as int == 0x2029
  }

  predicate NoLineTerminator(s: string) {
    forall i :: 0 <= i < |s| ==> !IsLineTerminator(s[i])
  }

  /** The length of the `.ext` that ends `s`, or 0 when `s` ends in none of
      the five extensions. */
  function ExtensionSuffix(s: string): (n: nat)
    ensures n > 0 ==> n <= |s| && s[|s| - n..] in DottedExtensions
    ensures n == 0 ==> forall e :: e in DottedExtensions ==> !EndsWith(s, e)
  {
    if EndsWith(s, ".mp4") then 4
    else if EndsWith(s, ".mov") then 4
    else if EndsWith(s, ".avi") then 4
    else if EndsWith(s, ".webm") then 5
    else if EndsWith(s, ".mkv") then 4
    else 0
  }

  /** The two patterns, tried in this order. */
  datatype Pattern = Versioned | Unversioned

  /** Where the group `(.+)` would start for a match attempt at `i`: after
      `/upload/v<digits>/`, resp. after `/upload/`. */
  function GroupStart(p: Pattern, s: string, i: nat): (g: Option<nat>)
    ensures g.Some? ==> i < g.value <= |s|
    ensures p == Unversioned ==> (g.Some? <==> OccursAt(s, "/upload/", i))
    ensures p == Unversioned && g.Some? ==> g.value == i + 8
    ensures p == Versioned && g.Some? ==>
              && OccursAt(s, "/upload/v", i) && i + 10 < g.value && s[g.value - 1] == '/'
              && forall k :: i + 9 <= k < g.value - 1 ==> IsDecimalDigit(s[k])
  {
    match p
    case Unversioned =>
      if OccursAt(s, "/upload/", i) then Some(i + 8) else None
    case Versioned =>
      if OccursAt(s, "/upload/v", i) then
        var k := DigitRun(s[i + 9..], 10);
        if k > 0 && i + 9 + k < |s| && s[i + 9 + k] == '/' then Some(i + 10 + k) else None
      else None
  }

  /** `v\d+\/` takes the whole run of digits after `/upload/v` and the slash
      that ends it; the digits and the slash cannot overlap, so no other
      split is possible. */
  lemma VersionedPrefixMatches(s: string, i: nat, n: nat)
    requires OccursAt(s, "/upload/v", i) && 0 < n && i + 9 + n < |s| && s[i + 9 + n] == '/'
    requires forall k :: i + 9 <= k < i + 9 + n ==> IsDecimalDigit(s[k])
    ensures GroupStart(Versioned, s, i) == Some(i + 10 + n)
  {
    var t := s[i + 9..];
    assert forall k :: 0 <= k < n ==> t[k] == s[i + 9 + k];
    DigitRunOfDigits(t, n);
  }

  /** The text the group captures when pattern `p` matches at index `i`. */
  function Capture(p: Pattern, s: string, i: nat): (c: Option<string>)
    ensures c.Some? ==> c.value != [] && NoLineTerminator(c.value)
    ensures c.Some? ==> ExtensionSuffix(s) > 0 && EndsWith(s[..|s| - ExtensionSuffix(s)], c.value)
    ensures c.Some? ==> GroupStart(p, s, i).Some? && |c.value| == |s| - ExtensionSuffix(s) - GroupStart(p, s, i).value
  {
    match GroupStart(p, s, i)
    case None => None
    case Some(g) =>
      var e := |s| - ExtensionSuffix(s);
      if ExtensionSuffix(s) > 0 && g < e && NoLineTerminator(s[g..e]) then Some(s[g..e]) else None
  }

  /** Together, the clauses of `Capture` pin the captured text: it runs from
      where the group starts to the dot before the extension. */
  lemma CaptureIsGroup(p: Pattern, s: string, i: nat)
    requires Capture(p, s, i).Some?
    ensures var g := GroupStart(p, s, i).value;
            g < |s| - ExtensionSuffix(s) && Capture(p, s, i).value == s[g..|s| - ExtensionSuffix(s)]
  {
    var e := |s| - ExtensionSuffix(s);
    var g := GroupStart(p, s, i).value;
    assert s[..e][g..] == s[g..e];
  }

  /** A URL that ends in one of the five extensions has that extension's
      length as its suffix: no two of them end alike. */
  lemma ExtensionOfSuffix(stem: string, ext: string)
    requires ext in DottedExtensions
    ensures ExtensionSuffix(stem + ext) == |ext|
  {
    var s := stem + ext;
    EndsWithAppended(stem, ext);
    if ext == ".mov" {
      DiffersNearEnd(s, ".mp4", 3);
    } else if ext == ".avi" {
      DiffersNearEnd(s, ".mp4", 3);
      DiffersNearEnd(s, ".mov", 3);
    } else if ext == ".webm" {
      DiffersNearEnd(s, ".mp4", 3);
      DiffersNearEnd(s, ".mov", 3);
      DiffersNearEnd(s, ".avi", 3);
    } else if ext == ".mkv" {
      DiffersNearEnd(s, ".mp4", 3);
      DiffersNearEnd(s, ".mov", 2);
      DiffersNearEnd(s, ".avi", 3);
      DiffersNearEnd(s, ".webm", 4);
    }
  }

  /** `stem + ext` ends with `ext`, and its last three characters are
      those of `ext`. */
  lemma EndsWithAppended(stem: string, ext: string)
    requires 3 <= |ext|
    ensures EndsWith(stem + ext, ext)
    ensures var s := stem + ext;
            && s[|s| - 1] == ext[|ext| - 1] && s[|s| - 2] == ext[|ext| - 2] && s[|s| - 3] == ext[|ext| - 3]
  {
    var s := stem + ext;
    assert s[|s| - |ext|..] == ext;
  }

  /** A text whose character at position `k` of the would-be suffix `e`
      differs from `e[k]` does not end with `e`. */
  lemma DiffersNearEnd(s: string, e: string, k: nat)
    requires k < |e|
    requires |e| <= |s| ==> s[|s| - |e| + k] != e[k]
    ensures !EndsWith(s, e)
  {
    if |e| <= |s| {
      assert s[|s| - |e|..][k] == s[|s| - |e| + k];
    }
  }

  /** Building a URL from a prefix, `/upload/`, an id and an extension, the
      unversioned pattern attempted at `/upload/` captures exactly the id. */
  lemma UnversionedCaptureRoundTrip(pre: string, id: string, ext: string)
    requires id != [] && NoLineTerminator(id) && ext in DottedExtensions
    ensures Capture(Unversioned, pre + "/upload/" + id + ext, |pre|) == Some(id)
  {
    var head := pre + "/upload/";
    var s := head + id + ext;
    assert s == pre + "/upload/" + id + ext;
    assert s[|pre|..|pre| + 8] == "/upload/";
    assert GroupStart(Unversioned, s, |pre|) == Some(|head|);
    CaptureOfParts(Unversioned, head, id, ext, |pre|);
  }

  /** The same for the versioned pattern: `/upload/v`, a non-empty run of
      digits and `/` before the id. */
  lemma VersionedCaptureRoundTrip(pre: string, d: string, id: string, ext: string)
    requires d != [] && forall k :: 0 <= k < |d| ==> IsDecimalDigit(d[k])
    requires id != [] && NoLineTerminator(id) && ext in DottedExtensions
    ensures Capture(Versioned, pre + "/upload/v" + d + "/" + id + ext, |pre|) == Some(id)
  {
    var i := |pre|;
    var head := pre + "/upload/v" + d + "/";
    var s := head + id + ext;
    assert s == pre + "/upload/v" + d + "/" + id + ext;
    assert s[i..i + 9] == "/upload/v";
    forall k | i + 9 <= k < i + 9 + |d|
      ensures IsDecimalDigit(s[k])
    {
      assert s[k] == head[k] == d[k - i - 9];
    }
    assert s[i + 9 + |d|] == head[i + 9 + |d|] == '/';
    VersionedPrefixMatches(s, i, |d|);
    CaptureOfParts(Versioned, head, id, ext, i);
  }

  /** When the group starts right after `head`, the capture is the part
      between `head` and the extension. */
  lemma CaptureOfParts(p: Pattern, head: string, id: string, ext: string, i: nat)
    requires id != [] && NoLineTerminator(id) && ext in DottedExtensions
    requires GroupStart(p, head + id + ext, i) == Some(|head|)
    ensures Capture(p, head + id + ext, i) == Some(id)
  {
    var s := head + id + ext;
    assert s == (head + id) + ext;
    ExtensionOfSuffix(head + id, ext);
    assert s[|head|..|s| - |ext|] == id;
  }

  /** The leftmost index at or after `i` where pattern `p` matches. */
  function LeftmostMatch(p: Pattern, s: string, i: nat): (r: Option<nat>)
    requires i <= |s|
    ensures r.Some? ==> i <= r.value <= |s| && Capture(p, s, r.value).Some?
    ensures r.Some? ==> forall j :: i <= j < r.value ==> Capture(p, s, j).None?
    ensures r.None? ==> forall j :: i <= j <= |s| ==> Capture(p, s, j).None?
    decreases |s| - i
  {
    if Capture(p, s, i).Some? then Some(i)
    else if i == |s| then None
    else LeftmostMatch(p, s, i + 1)
  }

  /** What `url.match(pattern)` returns as group 1 (the match must start at
      an index not beyond the end of the URL). */
  function MatchGroup(p: Pattern, url: string): Option<string> {
    match LeftmostMatch(p, url, 0)
    case None => None
    case Some(i) => Capture(p, url, i)
  }

  /** `extractPublicId`: the versioned pattern's group if it matches, else
      the unversioned pattern's group, else null. (Both groups are non-empty,
      so the `match[1]` truthiness tests never fail.) */
  function ExtractPublicId(url: string): (id: Option<string>)
    ensures id.Some? ==> id.value != [] && NoLineTerminator(id.value)
    ensures id.Some? ==> ExtensionSuffix(url) > 0
    ensures id.Some? ==> EndsWith(url[..|url| - ExtensionSuffix(url)], id.value)
  {
    match MatchGroup(Versioned, url)
    case Some(g) => Some(g)
    case None => MatchGroup(Unversioned, url)
  }

  /** Where the versioned pattern matches, the unversioned one matches too:
      `v<digits>/` is part of its group. */
  lemma VersionedImpliesUnversioned(s: string, i: nat)
    requires Capture(Versioned, s, i).Some?
    ensures Capture(Unversioned, s, i).Some?
  {
    var g := GroupStart(Versioned, s, i).value;
    var e := |s| - ExtensionSuffix(s);
    assert s[i..i + 8] == s[i..i + 9][..8];
    assert OccursAt(s, "/upload/", i);
    assert NoLineTerminator(s[g..e]);
    var group := s[i + 8..e];
    forall m | 0 <= m < |group|
      ensures !IsLineTerminator(group[m])
    {
      var j := i + 8 + m;
      assert group[m] == s[j];
      if j == i + 8 {
        assert s[j] == s[i..i + 9][8];
      } else if j < g - 1 {
        assert IsDecimalDigit(s[j]);
      } else if j >= g {
        assert s[j] == s[g..e][j - g];
      }
    }
    assert GroupStart(Unversioned, s, i) == Some(i + 8);
  }

  /** The extractor fails exactly when the unversioned pattern matches
      nowhere. */
  lemma ExtractFailsIffNoUploadMatch(url: string)
    ensures ExtractPublicId(url).None? <==> forall j :: 0 <= j <= |url| ==> Capture(Unversioned, url, j).None?
  {
    if MatchGroup(Versioned, url).Some? {
      var i := LeftmostMatch(Versioned, url, 0).value;
      VersionedImpliesUnversioned(url, i);
    }
  }

  /** When the versioned pattern matches anywhere, its leftmost match
      decides the id: the text between `/upload/v<digits>/` and the
      extension. */
  lemma VersionedTakesPrecedence(url: string, i: nat)
    requires Capture(Versioned, url, i).Some?
    requires forall j :: 0 <= j < i ==> Capture(Versioned, url, j).None?
    ensures ExtractPublicId(url) == Capture(Versioned, url, i)
  {
  }

  /** When the versioned pattern matches nowhere, the leftmost unversioned
      match decides the id: everything between the first `/upload/` that
      leads to a capture and the extension. */
  lemma UnversionedFallback(url: string, i: nat)
    requires forall j :: 0 <= j <= |url| ==> Capture(Versioned, url, j).None?
    requires Capture(Unversioned, url, i).Some?
    requires forall j :: 0 <= j < i ==> Capture(Unversioned, url, j).None?
    ensures ExtractPublicId(url) == Capture(Unversioned, url, i)
  {
  }

  /** A path that starts with `/upload/` and has no `v` anywhere yields
      everything between that `/upload/` and the extension, whatever else
      the id contains (another `/upload/` included). */
  lemma UploadWithoutVersion(url: string, id: string, ext: string)
    requires id != [] && NoLineTerminator(id) && ext in DottedExtensions
    requires 'v' !in id && 'v' !in ext && url == "/upload/" + id + ext
    ensures ExtractPublicId(url) == Some(id)
  {
    assert 'v' !in url;
    NoVersionedMatch(url);
    UnversionedCaptureRoundTrip("", id, ext);
    assert "" + "/upload/" + id + ext == url;
    UnversionedFallback(url, 0);
  }

  /** Without a `v`, the versioned pattern matches nowhere. */
  lemma NoVersionedMatch(url: string)
    requires 'v' !in url
    ensures forall j :: 0 <= j <= |url| ==> Capture(Versioned, url, j).None?
  {
    forall j | 0 <= j <= |url|
      ensures Capture(Versioned, url, j).None?
    {
      NoLetterVNoVersioned(url, j);
    }
  }

  /** A URL with two `/upload/` segments and no version: the leftmost one
      wins, so the second `/upload/` stays inside the id. */
  lemma NestedUploadKeepsLeftmost(url: string)
    requires url == "/upload/a/upload/b.mp4"
    ensures ExtractPublicId(url) == Some("a/upload/b")
  {
    assert url == "/upload/" + "a/upload/b" + ".mp4";
    UploadWithoutVersion(url, "a/upload/b", ".mp4");
  }

  /** The versioned pattern needs a `v` right after `/upload/`. */
  lemma NoLetterVNoVersioned(s: string, j: nat)
    requires 'v' !in s
    ensures GroupStart(Versioned, s, j).None?
  {
    if j + 9 <= |s| {
      assert s[j..j + 9][8] == s[j + 8];
    }
  }

  /** A URL that does not end in one of the five lower-case extensions has no
      public id; upper-case extensions are not recognised. */
  lemma NoExtensionNoId(url: string, stem: string)
    ensures ExtensionSuffix(url) == 0 ==> ExtractPublicId(url).None?
    ensures ExtractPublicId(stem + ".MP4").None?
  {
    NoExtensionNoMatch(url);
    var s := stem + ".MP4";
    assert s[|s| - 1] == '4' && s[|s| - 2] == 'P';
    assert ExtensionSuffix(s) == 0;
    NoExtensionNoMatch(s);
  }

  lemma NoExtensionNoMatch(url: string)
    ensures ExtensionSuffix(url) == 0 ==> MatchGroup(Versioned, url).None? && MatchGroup(Unversioned, url).None?
  {
    if ExtensionSuffix(url) == 0 {
      assert LeftmostMatch(Versioned, url, 0).None?;
      assert LeftmostMatch(Unversioned, url, 0).None?;
    }
  }

  /** The example URL of the route's doc comment, written segment by
      segment: the verifier reasons about a concatenation of short literals
      far more cheaply than about one long literal. */
  const DocExampleUrl: string :=
    "https:" + "//" + "res.cloudinary.com" + "/" + "dwnxkx4xw" + "/" + "video"
    + "/upload/v" + "1234567890" + "/" + "click-ads/video123" + ".mp4"

  /** The doc comment's example: the versioned URL yields its folder and
      file name without the extension. */
  lemma DocCommentExample()
    ensures ExtractPublicId(DocExampleUrl) == Some("click-ads/video123")
  {
    ExampleNoEarlierStart();
    SkipMismatches(DocExampleUrl, 42);
    ExampleMatch();
  }

  /** No attempt before index 42 gets past the literal `/upload/v`: every
      `/` there is followed by something other than `u`. */
  lemma ExampleNoEarlierStart()
    ensures forall j :: 0 <= j < 42 ==> GroupStart(Versioned, DocExampleUrl, j).None?
  {
    var url := DocExampleUrl;
    assert '/' !in "https:" && '/' !in "res.cloudinary.com" && '/' !in "dwnxkx4xw" && '/' !in "video";
    assert url[7] == '/' && url[8] == 'r' && url[27] == 'd' && url[37] == 'v';
    forall j | 0 <= j < 42
      ensures GroupStart(Versioned, url, j).None?
    {
      NoSlashUNoVersioned(url, j);
    }
  }

  /** At index 42 the URL reads "/upload/v", ten digits, "/", the group and
      ".mp4". */
  lemma ExampleMatch()
    ensures Capture(Versioned, DocExampleUrl, 42) == Some("click-ads/video123")
  {
    var pre := "https:" + "//" + "res.cloudinary.com" + "/" + "dwnxkx4xw" + "/" + "video";
    assert DocExampleUrl == pre + "/upload/v" + "1234567890" + "/" + "click-ads/video123" + ".mp4";
    VersionedCaptureRoundTrip(pre, "1234567890", "click-ads/video123", ".mp4");
  }

  /** An attempt whose first two characters are not `/u` fails. */
  lemma NoSlashUNoVersioned(s: string, j: nat)
    requires j + 1 < |s| && (s[j] != '/' || s[j + 1] != 'u')
    ensures GroupStart(Versioned, s, j).None?
  {
    if j + 9 <= |s| {
      assert s[j..j + 9][0] == s[j] && s[j..j + 9][1] == s[j + 1];
    }
  }

  /** The versioned pattern cannot start at `j` when a character there
      differs from its literal prefix `/upload/v`. */
  lemma Mismatch(s: string, j: nat, m: nat)
    requires j + 9 <= |s| && m < 9 && s[j + m] != "/upload/v"[m]
    ensures GroupStart(Versioned, s, j).None?
  {
    if j + 9 <= |s| {
      assert s[j..j + 9][8] == s[j + 8];
    }
  }

  /** When no versioned attempt before `k` gets past its literal prefix, the
      leftmost-match search starts afresh at `k`. */
  lemma {:induction false} SkipMismatches(s: string, k: nat)
    requires k <= |s|
    requires forall j :: 0 <= j < k ==> GroupStart(Versioned, s, j).None?
    ensures LeftmostMatch(Versioned, s, 0) == LeftmostMatch(Versioned, s, k)
    decreases k
  {
    if k > 0 {
      SkipMismatches(s, k - 1);
    }
  }

  /** The digit run of a string starting with `n` digits and then a
      non-digit is `n`. */
  lemma {:induction false} DigitRunOfDigits(s: string, n: nat)
    requires n < |s| && !IsRadixDigit(s[n], 10)
    requires forall i :: 0 <= i < n ==> IsDecimalDigit(s[i])
    ensures DigitRun(s, 10) == n
    decreases n
  {
    if n > 0 {
      DigitRunOfDigits(s[1..], n - 1);
    }
  }

  // ---------------------------------------------------------------------
  // The handler

  /** The request body: JSON that failed to parse (with the parser's error
      message), or the `videoUrl` field. */
  datatype DeleteBody = Unparseable(message: string) | Body(videoUrl: JsValue<string>)

  /** The outcome of `cloudinary.uploader.destroy`: the `result` it reports,
      or the message of the error it throws. */
  datatype DestroyReply = Replied(result: string) | Threw(message: string)

  datatype DeleteResponse =
    | BadRequest(error: string)                    // 400
    | Skipped                                      // 200, not a Cloudinary URL
    | Deleted(result: string, publicId: string)    // 200
    | Failed(details: string)                      // 500

  /** The response, and the public id passed to `destroy`, if it was called. */
  datatype DeleteResult = DeleteResult(response: DeleteResponse, destroyed: Option<string>)

  function Status(r: DeleteResponse): int {
    match r
    case BadRequest(_) => 400
    case Failed(_) => 500
    case _ => 200
  }

  /** Destroy outcomes the handler accepts as success. */
  predicate Accepted(result: string) {
    result == "ok" || result == "not found"
  }

  /** The `POST` handler; `destroy` stands for the Cloudinary call. */
  function HandleDelete(body: DeleteBody, destroy: string -> DestroyReply): (r: DeleteResult)
    ensures body.Unparseable? ==> r == DeleteResult(Failed(body.message), None)
    ensures r.destroyed.Some? ==> body.Body? && body.videoUrl.Val? && r.destroyed == ExtractPublicId(body.videoUrl.v)
    ensures body.Body? && !Truthy(body.videoUrl) ==> r == DeleteResult(BadRequest("Video URL is required"), None)
    ensures body.Body? && Truthy(body.videoUrl) && !Contains(body.videoUrl.v, "cloudinary.com")
            ==> r == DeleteResult(Skipped, None)
    ensures body.Body? && Truthy(body.videoUrl) && Contains(body.videoUrl.v, "cloudinary.com")
            && ExtractPublicId(body.videoUrl.v).None?
            ==> r == DeleteResult(BadRequest("Invalid Cloudinary URL format"), None)
    ensures body.Body? && Truthy(body.videoUrl) && Contains(body.videoUrl.v, "cloudinary.com")
            && ExtractPublicId(body.videoUrl.v).Some?
            ==> r.destroyed == ExtractPublicId(body.videoUrl.v)
    ensures r.destroyed.Some? && destroy(r.destroyed.value).Threw?
            ==> r.response == Failed(destroy(r.destroyed.value).message)
    ensures r.response.Deleted? <==> r.destroyed.Some? && destroy(r.destroyed.value).Replied?
                                     && Accepted(destroy(r.destroyed.value).result)
    ensures r.response.Deleted? ==> r.response.publicId == r.destroyed.value
                                    && r.response.result == destroy(r.destroyed.value).result
  {
    match body
    case Unparseable(message) => DeleteResult(Failed(message), None)
    case Body(videoUrl) =>
      if !Truthy(videoUrl) then DeleteResult(BadRequest("Video URL is required"), None)
      else if !Contains(videoUrl.v, "cloudinary.com") then DeleteResult(Skipped, None)
      else
        match ExtractPublicId(videoUrl.v)
        case None => DeleteResult(BadRequest("Invalid Cloudinary URL format"), None)
        case Some(publicId) =>
          var reply := destroy(publicId);
          var response :=
            match reply
            case Threw(message) => Failed(message)
            case Replied(result) =>
              if Accepted(result) then Deleted(result, publicId)
              else Failed("Cloudinary delete failed: " + result);
          DeleteResult(response, Some(publicId))
  }

  /** Any destroy result other than "ok" and "not found" is a server error
      naming that result. */
  lemma RejectedDestroyIsServerError(body: DeleteBody, destroy: string -> DestroyReply)
    ensures var r := HandleDelete(body, destroy);
            r.destroyed.Some? && destroy(r.destroyed.value).Replied? && !Accepted(destroy(r.destroyed.value).result)
            ==> r.response == Failed("Cloudinary delete failed: " + destroy(r.destroyed.value).result)
                && Status(r.response) == 500
  {
  }
}

=== FILE: wrappers.dfy ===
/** The optional-value type used throughout the model for JavaScript's
    `null`/`undefined` results (a missing storage key, a failed regex match,
    a `findFirst` that found nothing). */
module Wrappers {

  datatype Option<+T> = None | Some(value: T) {

    /** Returns the wrapped value, or `default` when there is none. */
    function GetOr(default: T): T {
      match this
      case Some(v) => v
      case None => default
    }
  }
}
